=== FILE: README.md ===
# Binary containers and virtual-filesystem paths, in Dafny

This project models two pieces of a JavaScript code base and proves properties about them.

**The binary codec (binaryIO.js).**
- A `BinaryContainer` is a byte store with a `size` and a `capacity`. It is re-allocated by `create`, `reserve` and `reallocate`. It converts to and from hex text with `toHex`, `assignHex` and `clearBinaryHexData`, and from text with `assignAscii`.
- A `BinaryReader` is the container's bytes plus a cursor. It provides `seek`, `skip`, `align` and `tell`. It reads:
  - little-endian u8/u16/u32/i8/i16/i32 values;
  - bools;
  - length-prefixed and NUL-terminated strings;
  - integer vectors;
  - a base-128 varint.
- A `BinaryWriter` appends. Every write goes through `_reserveGrow`, and each write mirrors one read. `padToAlignment` and `writeZeros` append filler bytes.

**The path algebra (filesystem.js).**
- A `Path` is a list of string segments. It provides `from`, `join`, `withExtension`, `parent`, `basename`, `toString`, `relativeTo` and `equals`.
- A `VirtualFilesystem` files documents under a root by entity id. Names go through `_sanitizeFilename`.

Everything is modelled functionally. An operation that mutates an object in the source returns the new value here. An operation that throws returns `Err` of a `Result`.

Modules, one per file:
- `Results`: `Result`, `Option` and `Outcome`.
- `Text`: a string's UTF-16 code units.
- `Bytes`: bytes, little-endian fields, two's complement, and JavaScript's `ToInt32`.
- `Containers`: the container.
- `Hex`: hex text.
- `VarInt`: the varint, both as written and corrected.
- `Readers`: the reader.
- `Writers`: the writer.
- `RoundTrips`: each write read back.
- `Paths`: `Path`.
- `Filesystem`: `VirtualFilesystem`.

Conventions that follow the code:
- A container's store is `Option<seq<byte>>`, because the source starts with `data = null`. `reallocate(n)` with n ≥ 0, `writeZeros(0)`, and `reserve(n)` with n above the capacity, throw a TypeError on a writer that never allocated a store. The model returns `Err(NoStore)`. A `reserve(n)` with n at most the capacity does nothing and does not throw. A negative length passed to `create` or `reallocate` is a RangeError from the `Uint8Array` constructor, raised before the store is touched. The model returns `Err(OutOfBounds)`.
- A reader's position is an `int`. `skip` with a negative count can move it below 0, and `skip` moves the cursor before it throws. The model returns the moved reader together with the failure.
- `readStringOfSize` takes `subarray(position, position + n)`. Out-of-range ends are clamped, exactly as `subarray` clamps them.
- `readCString` throws only when its scan stops exactly at the size. A cursor already past the size is scanned as written.
- `align` uses JavaScript's `%`, whose remainder takes the sign of the dividend. It is not Dafny's Euclidean `%`.
- `writeU8`/`writeU16`/`writeU32` store a value modulo 2^(8w). Signed writes store the two's-complement bytes, which are the same bytes.
- `writeVarInt` and `readVarInt` use 32-bit `>>`, `&` and `<<`. The model writes these out via `ToInt32`.
- `Path.from` splits a string the way `String.prototype.split('/')` does, then drops empty pieces.
- A Dafny `char` is a Unicode scalar value, while JavaScript strings are sequences of UTF-16 code units. `assignAscii` and `_sanitizeFilename` work per code unit, so the model runs them over `Text.Utf16`, where a character above U+FFFF is a surrogate pair of two units. Splitting on '/' gives the same pieces either way, so `Path` keeps whole characters.

Text encoding (`TextEncoder`/`TextDecoder`) is outside the model:
- A string written to a writer enters as its encoded bytes.
- A string read from a reader leaves as the bytes that would be decoded.

## Model

| member | source | states |
|---|---|---|
| Text.CodeUnits | binaryIO.js:75-77 | a character below U+10000 is one code unit equal to it; any other is a high surrogate then a low surrogate that together encode it |
| Text.Utf16 | filesystem.js:157 | a string's code units: at least one per character, each below 0x10000 |
| Text.Utf16Append | filesystem.js:157 | the code units of a concatenation are the concatenated code units |
| Text.Utf16OfBasic | binaryIO.js:75-77 | a string without characters above U+FFFF has exactly one code unit per character, equal to it |
| Bytes.FromLittleEndian | binaryIO.js:136-146 | the value read from w bytes, least significant first, is below 2^(8w) |
| Bytes.EncodeFixedValue | binaryIO.js:373-401 | the w bytes a fixed-width write stores read back, little-endian, as v modulo 2^(8w), for any integer v |
| Bytes.ToSigned | binaryIO.js:148-164 | the two's-complement reading of a w-byte unsigned value lies in the signed w-byte range and is congruent to it modulo 2^(8w) |
| Bytes.ToUnsignedIsMod | binaryIO.js:373-383 | the bytes an unsigned write stores are those of v modulo 2^(8w), as DataView's setUint16/setUint32 and a Uint8Array store reduce it |
| Bytes.LittleEndianRoundTrip | binaryIO.js:136-146 | reading back the w little-endian bytes of v gives v modulo 2^(8w) |
| Bytes.FromLittleEndianRoundTrip | binaryIO.js:136-146 | every w-byte field is the little-endian encoding of the unsigned value read from it |
| Bytes.UnsignedRoundTrip | binaryIO.js:373-383 | a value below 2^(8w) written as w little-endian bytes reads back unchanged |
| Bytes.SignedRoundTrip | binaryIO.js:391-401 | a value in the signed w-byte range written by setInt16/setInt32 reads back unchanged under the two's-complement reading of getInt16/getInt32 |
| Bytes.SignedOfUnsigned | binaryIO.js:148-164 | taking a signed value modulo 2^(8w) and reinterpreting it as two's complement gives it back |
| Bytes.ToInt32 | binaryIO.js:575 | the ToInt32 conversion applied before `>>` and `&` is a signed 32-bit value congruent to its input modulo 2^32, is the identity on [0, 2^31), and never exceeds a non-negative input |
| Containers.Empty | binaryIO.js:13-18 | a new container has no store and size 0, and satisfies the size ≤ capacity invariant |
| Containers.Create | binaryIO.js:20-24 | create(n) fails with a range error exactly when n < 0; otherwise it installs n zero bytes with capacity n and keeps the size, and the invariant holds exactly when the size is at most n |
| Containers.ReaderStore | binaryIO.js:88-95 | a reader's store: its meaningful bytes are the given data, and it breaks the capacity invariant whenever the data is non-empty |
| Containers.Reserve | binaryIO.js:26-34 | a no-op when n ≤ capacity; otherwise capacity becomes n, the old capacity's bytes are kept, the rest is zero and the size is unchanged; it fails only when there is no store |
| Containers.Reallocate | binaryIO.js:36-42 | succeeds exactly when there is a store and n ≥ size; then capacity is n, the meaningful bytes are kept and the rest is zero; a negative n is a range error |
| Containers.AssignAscii | binaryIO.js:74-85 | size = capacity = the number of UTF-16 code units; byte i is code unit i modulo 256; for a string of characters below 256 the bytes are the characters |
| Containers.AssignAsciiInjectiveOnLatin1 | binaryIO.js:74-85 | two strings of code units below 256 that give the same bytes are equal |
| Containers.AssignAsciiTruncates | binaryIO.js:77 | the code unit 0x100 is stored as 0: the `& 0xFF` loses information above Latin-1 |
| Containers.AssignAsciiSurrogates | binaryIO.js:75-77 | U+1F600 is two code units, D83D and DE00, and is stored as the two bytes 0x3D 0x00 |
| Hex.HexDigit | binaryIO.js:48 | the lowercase digit `toString(16)` prints for n < 16 is a hex digit whose value is n |
| Hex.Filter | binaryIO.js:5-10 | the characters kept satisfy the predicate; every satisfying character occurs in the result; an input that satisfies it throughout is kept whole |
| Hex.IsWhitespace | binaryIO.js:7 | the characters the class `\s` matches: tab, line feed, vertical tab, form feed, carriage return, space, and the Unicode space separators, line and paragraph separators and byte-order mark |
| Hex.FilterOne | binaryIO.js:5-10 | one character is kept exactly when it satisfies the predicate; with Hex.FilterAppend this fixes the result's order and count |
| Hex.FilterAppend | binaryIO.js:5-10 | filtering distributes over concatenation |
| Hex.StripHexPrefix | binaryIO.js:8 | removes one leading `0x` or `0X` and nothing else |
| Hex.ClearHexData | binaryIO.js:5-10 | the cleaned text holds only hex digits and is no longer than the input; a text of hex digits is left unchanged; with Hex.ClearUnprefixed and Hex.ClearPrefixed the result is fixed for every input |
| Hex.HexFilterIgnoresWhitespace | binaryIO.js:7-9 | removing whitespace before keeping the hex digits changes nothing |
| Hex.ClearUnprefixed | binaryIO.js:5-10 | when the whitespace-free text does not start with 0x or 0X, the result is exactly the input's hex digits, in order |
| Hex.ClearPrefixed | binaryIO.js:5-10 | when the whitespace-free text starts with 0x or 0X, the result is the input's hex digits, in order, without the prefix's '0': whitespace goes first, then the prefix |
| Hex.ClearAfterPrefix | binaryIO.js:5-10 | text starting with 0x or 0X cleans to the hex digits of the rest, in order, whatever separators or other characters it holds |
| Hex.PrefixStripped | binaryIO.js:8 | a leading 0x or 0X before hex digits is removed and the digits are kept unchanged |
| Hex.ClearHexDataIdempotent | binaryIO.js:5-10 | cleaning twice is cleaning once |
| Hex.HexCell | binaryIO.js:47-49 | each byte prints as two hex digits whose pair value is the byte, then a space |
| Hex.HexOf | binaryIO.js:44-52 | 3 characters per byte: high digit, low digit, space |
| Hex.ToHex | binaryIO.js:44-52 | for any container whose store holds its size, a reader's store included, the loop over [0, size) produces 3·size characters, with byte i's digits at 3i and 3i+1 |
| Hex.RemoveSeparators | binaryIO.js:7 | removing the whitespace from toHex's output leaves exactly two digits per byte |
| Hex.DecodePairs | binaryIO.js:59-61 | the loop produces one byte per digit pair, with value 16·high + low |
| Hex.AssignHex | binaryIO.js:54-68 | fails exactly when the cleaned digit count is odd; otherwise size = capacity = digits/2 and byte i is the value of digit pair i |
| Hex.HexRoundTrip | binaryIO.js:44-68 | cleaning toHex's output leaves 2 digits per byte, and pair i's value is byte i, so assignHex(toHex()) restores the bytes |
| Hex.HexOfExample | binaryIO.js:44-52 | bytes 0x1A 0x2B print as `1a 2b ` |
| VarInt.EncodeAsWritten | binaryIO.js:582-590 | the bytes writeVarInt stores: at least one, and every byte but the last has the continuation bit |
| VarInt.DecodeAsWritten | binaryIO.js:324-338 | readVarInt as written always moves the cursor forward |
| VarInt.Shl32 | binaryIO.js:330 | JavaScript's `x << s`: a signed 32-bit value congruent to x·2^(s mod 32) modulo 2^32 |
| VarInt.Encode | binaryIO.js:569-592 | the corrected unbounded encoder: continuation bits on every byte but a final one below 128 |
| VarInt.Decode | binaryIO.js:324-338 | the corrected decoder fails only with an out-of-bounds error; on success it stops just after a byte below 128 inside the data |
| VarInt.DecodeStopsAtFirstFinalByte | binaryIO.js:328-335 | decoding fails exactly when no byte below 128 follows the start; otherwise it ends just after the first such byte |
| VarInt.RoundTrip | binaryIO.js:324-338 | every natural number, once encoded, decodes back to itself and the cursor ends just after its bytes |
| VarInt.EncodeAgrees | binaryIO.js:569-592 | below 2^31 the as-written encoder emits exactly the corrected encoding |
| VarInt.DecodeAsWrittenAgrees | binaryIO.js:324-338 | while the value being read stays below 2^31, the 32-bit `<<` accumulation computes the corrected value and stops at the same place |
| VarInt.AsWrittenRoundTrip | binaryIO.js:324-338 | for 0 ≤ v < 2^31, readVarInt reads v back from writeVarInt's bytes and stops just after them |
| VarInt.Encode300 | binaryIO.js:569-592 | writeVarInt(300) stores 0xAC 0x02 |
| VarInt.AsWrittenLosesBit31 | binaryIO.js:569-592 | writeVarInt(2^31) stores 0x80 0x00, which reads back as 0 |
| VarInt.AsWrittenReadWraps | binaryIO.js:330 | the bytes 80 80 80 80 08 read as -2^31 as written, and as 2^31 by the corrected decoder |
| VarInt.DecodeBit31 | binaryIO.js:324-338 | the corrected decoder reads 80 80 80 80 08 as 2^31 |
| VarInt.AsWrittenReadsPastEnd | binaryIO.js:329-333 | a lone 0x80 reads as 0 with the cursor past the end as written, and is an out-of-bounds error for the corrected decoder |
| Readers.Open | binaryIO.js:89-97 | a new reader is at position 0 over the given bytes |
| Readers.Seek | binaryIO.js:115-121 | throws exactly when p < 0 or p > size; otherwise the cursor is p |
| Readers.Skip | binaryIO.js:99-104 | the cursor moves by n even when it throws, and it throws exactly when it passes the size |
| Readers.SkipAgreesWithSeek | binaryIO.js:99-121 | for position + n ≥ 0, skip(n) fails exactly when seek(position + n) throws, and otherwise ends where that seek puts the cursor; below 0 skip passes while seek throws |
| Readers.JsRem | binaryIO.js:107 | JavaScript `%` for any non-zero divisor: congruent to the dividend modulo the divisor's magnitude, smaller than it in magnitude, and with the dividend's sign |
| Readers.Align | binaryIO.js:106-111 | for n > 0 and a non-negative cursor, the new cursor is a multiple of n in [position, position + n) |
| Readers.AlignIsLeastMultiple | binaryIO.js:106-111 | no multiple of n at or after the cursor comes before the aligned cursor |
| Readers.ReadUnsigned | binaryIO.js:130-146 | fails exactly when the w-byte field is not inside the data; otherwise the value is below 2^(8w), the field is its little-endian encoding, and the cursor moves by w |
| Readers.FieldLayout | binaryIO.js:136-146 | a field is the fixed-width encoding of the unsigned value read from it |
| Readers.ReadSigned | binaryIO.js:148-164 | fails exactly when the field is outside the data; otherwise the value is in the signed w-byte range, the field is its two's-complement encoding, and the cursor moves by w |
| Readers.SignedLayout | binaryIO.js:148-164 | the two's-complement reading of an unsigned field value is in range and has the same encoding |
| Readers.ReadBool | binaryIO.js:218-220 | fails exactly when the byte is outside the data; otherwise the result is true exactly when the byte is non-zero, and the cursor moves by 1 |
| Readers.RelativeIndex | binaryIO.js:179 | subarray's index clamping lands in [0, length] and leaves an in-range index alone |
| Readers.JsSubarray | binaryIO.js:179 | an in-range subarray is the slice, and no subarray is longer than the data |
| Readers.ReadBytesOfSize | binaryIO.js:178-182 | the cursor always moves by n; inside the data the result is exactly the n bytes at the cursor, and never more than n |
| Readers.ReadLengthPrefixed | binaryIO.js:184-197 | fails exactly when the prefix is outside the data; otherwise the cursor ends after the prefix and the n bytes it announces, which are returned when they fit |
| Readers.NulIndex | binaryIO.js:205-208 | the scan stops at the first 0 at or after the cursor, or at the size |
| Readers.ReadCString | binaryIO.js:203-216 | throws exactly when the scan reaches the size; otherwise the cursor ends just after the terminator |
| Readers.ReadCStringFirstNul | binaryIO.js:203-216 | fails exactly when no 0 follows the cursor; otherwise it returns the bytes before the first 0, which contain no 0, and the cursor ends just after that 0 |
| Readers.ReadSignedVector | binaryIO.js:229-292 | fails exactly when the k·w bytes are not inside the data; otherwise k components are returned and the cursor moves by k·w |
| Readers.VectorComponents | binaryIO.js:229-292 | a vector read's components are the values of consecutive single signed reads |
| Readers.VectorOfComponents | binaryIO.js:229-292 | conversely, values that consecutive single reads produce are what the vector read returns |
| Readers.VectorUnfold | binaryIO.js:229-292 | a successful vector read is one signed read followed by a vector read of the rest |
| Readers.ReadVarInt | binaryIO.js:324-338 | the loop computes the as-written decoding; a single byte below 128 reads as itself and moves the cursor by 1 |
| Readers.ReadVarIntChecked | binaryIO.js:324-338 | the corrected read fails exactly when the data ends inside the number; otherwise it stops just after a final byte inside the data |
| Writers.ReserveGrow | binaryIO.js:346-365 | returns the old size; the size grows by k; the old bytes are kept; the store is replaced by the old bytes plus zeros exactly when it must grow, and is otherwise unchanged |
| Writers.Overwrite | binaryIO.js:431 | `set` at an offset changes exactly the positions it writes |
| Writers.Append | binaryIO.js:427-433 | grow then set: the meaningful bytes gain exactly the written bytes |
| Writers.AppendContents | binaryIO.js:352-354 | the bytes kept by a grow, followed by the bytes set after them, form the new meaningful bytes |
| Writers.WriteFixed | binaryIO.js:367-401 | the meaningful bytes gain the w-byte little-endian (two's-complement) encoding of the value |
| Writers.OneByte | binaryIO.js:369 | a one-byte store keeps v modulo 256 |
| Writers.WriteBool | binaryIO.js:415-418 | the meaningful bytes gain 1 for true and 0 for false |
| Writers.WriteLengthPrefixed | binaryIO.js:427-449 | the meaningful bytes gain the w-byte count, then the encoded bytes |
| Writers.WriteCString | binaryIO.js:455-461 | the meaningful bytes gain the encoded bytes and one 0 |
| Writers.WriteZeros | binaryIO.js:611-615 | count zero bytes are appended after the old bytes; a writer with no store and a count of 0 throws |
| Writers.WriteSignedVector | binaryIO.js:469-524 | the meaningful bytes gain one w-byte field per component, in order |
| Writers.VarIntSize | binaryIO.js:570-577 | the size loop counts exactly the bytes the store loop writes |
| Writers.StoreVarInt | binaryIO.js:580-590 | the store loop writes the encoding at the reserved offset and leaves everything before it alone |
| Writers.StoreStep | binaryIO.js:585 | one store extends the written prefix of the encoding by one byte |
| Writers.WriteVarInt | binaryIO.js:569-592 | the meaningful bytes gain exactly the bytes the size loop counted, which are the as-written encoding |
| Writers.AppendVarInt | binaryIO.js:569-592 | the corrected writer appends the corrected encoding, which the corrected decoder reads back from the old size |
| Writers.PadCount | binaryIO.js:594-600 | fewer than n filler bytes make the size a multiple of n, and none are added when n ≤ 0 |
| Writers.PadToAlignment | binaryIO.js:594-602 | the size becomes the least multiple of n at or after it; the added bytes all equal fill modulo 256; nothing changes when n ≤ 0 |
| RoundTrips.WrittenAt | binaryIO.js:346-365 | the bytes a write appends sit at the old size of the writer's bytes, whatever follows them |
| RoundTrips.UnsignedValue | binaryIO.js:136-146 | an unsigned read inside the data returns the little-endian value of the field |
| RoundTrips.FixedRoundTrip | binaryIO.js:130-146 | readU8/U16/U32 where writeU8/U16/U32 wrote v returns v modulo 2^(8w) and moves by w |
| RoundTrips.SignedFixedRoundTrip | binaryIO.js:148-164 | readI8/I16/I32 where the matching write wrote an in-range value returns it and moves by w |
| RoundTrips.BoolRoundTrip | binaryIO.js:218-220 | readBool where writeBool wrote b returns b |
| RoundTrips.PrefixedRead | binaryIO.js:184-197 | a prefix holding n followed by n bytes reads back as those bytes |
| RoundTrips.LengthPrefixedRoundTrip | binaryIO.js:184-197 | readStringU8/U16/U32 where the matching write wrote fewer than 2^(8w) bytes returns them and ends after them |
| RoundTrips.LengthPrefixTruncates | binaryIO.js:427-433 | with a one-byte prefix, 256 written bytes read back as none, because the prefix stored 0 |
| RoundTrips.CStringRoundTrip | binaryIO.js:203-216 | readCString where writeCString wrote bytes containing no 0 returns them and ends after the terminator |
| RoundTrips.VectorRoundTrip | binaryIO.js:229-292 | a vector read where the matching write wrote in-range components returns them and ends after k·w bytes |
| RoundTrips.FieldsComponents | binaryIO.js:469-524 | each field a vector write stores reads back, one after another, as its component |
| RoundTrips.FirstComponent | binaryIO.js:469-524 | the first field reads back as the first component, and the rest follow it |
| RoundTrips.VarIntRoundTrip | binaryIO.js:569-592 | readVarInt(writeVarInt(v)) gives v for 0 ≤ v < 2^31 with the cursor just after it, and gives 0 after two bytes for v = 2^31 |
| RoundTrips.LostBit | binaryIO.js:324-338 | where writeVarInt(2^31) wrote, readVarInt reads 0 and moves by 2 |
| RoundTrips.CheckedVarIntRoundTrip | binaryIO.js:324-338 | the corrected read gives back every natural number the corrected write wrote |
| RoundTrips.AlignSkipsPadding | binaryIO.js:594-602 | align(n) from position s stops exactly where padToAlignment(n) from size s stops |
| Paths.Split | filesystem.js:12 | `split('/')` gives at least one piece, and no piece contains '/' |
| Paths.JoinSlash | filesystem.js:39 | Array.prototype.join('/'), used by toString and by relativeTo at line 68: the inverse of Split on '/'-free pieces (Paths.JoinSplit, Paths.SplitJoin) |
| Paths.JoinSplit | filesystem.js:12 | joining the pieces of a split with '/' restores the string |
| Paths.SplitJoin | filesystem.js:38-40 | splitting the '/'-join of '/'-free pieces gives the pieces back |
| Paths.SplitJoinPlain | filesystem.js:38-40 | for any list of pieces: when they are '/'-free and there is at least one, their join splits back into them |
| Paths.SplitPlain | filesystem.js:12 | a string without '/' splits into itself |
| Paths.SplitLeading | filesystem.js:12 | splitting `a/t` with a free of '/' gives a followed by the pieces of t |
| Paths.NonEmpty | filesystem.js:12 | the filter keeps only non-empty pieces, all drawn from the input, and keeps every piece when none is empty |
| Paths.NonEmptyOne | filesystem.js:12 | a single piece is kept exactly when it is non-empty |
| Paths.NonEmptyAppend | filesystem.js:12 | filtering distributes over concatenation, so with Paths.NonEmptyOne the non-empty pieces are kept in their order |
| Paths.Segments | filesystem.js:12 | every segment a string part contributes is non-empty and free of '/' |
| Paths.SplitSlash | filesystem.js:12 | splitting a/b gives the pieces of a followed by those of b |
| Paths.SegmentsSlash | filesystem.js:12 | the segments of a/b are those of a followed by those of b |
| Paths.From | filesystem.js:9-16 | throws exactly when some part is neither a Path nor a string, with an invalid-part error |
| Paths.FromOne | filesystem.js:9-16 | a single Path part gives its own segments, and a single string part gives its non-empty pieces |
| Paths.FromConcat | filesystem.js:9-16 | the segments of from(a…, b…) are those of from(a…) followed by those of from(b…) |
| Paths.Join | filesystem.js:18-20 | join throws exactly when from would; otherwise the receiver's segments come first, then the parts' segments |
| Paths.JoinTwice | filesystem.js:18-20 | joining in two steps is joining all parts at once |
| Paths.Parent | filesystem.js:29-36 | parent is null exactly when there is at most one segment; otherwise its segments followed by the basename are the path's |
| Paths.Basename | filesystem.js:34-36 | the empty path's basename is ''; otherwise it is the last segment, after all the others |
| Paths.ToString | filesystem.js:38-40 | the empty path prints as ''; a path of '/'-free segments prints as a string whose '/'-pieces are its segments |
| Paths.WithExtension | filesystem.js:22-27 | the segment count is kept; the empty path's segment list stays empty; otherwise the parent is unchanged and the basename becomes `basename.ext` |
| Paths.FromToString | filesystem.js:9-16 | from(p.toString()) is p when every segment is non-empty and free of '/' |
| Paths.CommonPrefixLength | filesystem.js:49-58 | the count is at most both lengths, both lists agree below it, and they differ at it unless one of them ends there |
| Paths.Repeat | filesystem.js:64 | n copies of a string, each equal to it |
| Paths.Directory | filesystem.js:46 | the folder relativeTo starts from: the parent's segments, or none when there is no parent |
| Paths.ResolveUp | filesystem.js:64 | n leading '..' steps of the reference resolution drop the folder's last n segments |
| Paths.ResolveDown | filesystem.js:65 | the downward steps of the reference resolution append the remaining target segments |
| Paths.RelativeResolves | filesystem.js:45-69 | following the relative parts from the parent's folder arrives at the target when the target has no '..' segment |
| Paths.RelativeParts | filesystem.js:45-67 | there are no parts exactly when the path's folder is the target; every part is '..' or a target segment; '/'-free target segments give '/'-free parts |
| Paths.RelativeTo | filesystem.js:45-69 | the string is '.' when there are no relative parts, and otherwise splits back into them when the target's segments are '/'-free |
| Paths.RelativeToSelf | filesystem.js:45-69 | a path relative to itself is its basename, or '.' when it is empty |
| Paths.Equals | filesystem.js:71-75 | true exactly when the other value is a Path with the same segments, so it is reflexive and symmetric |
| Filesystem.Sanitize | filesystem.js:156-158 | one output character per UTF-16 code unit of the name: a unit in [A-Za-z0-9_.-] is kept, every other unit becomes '_', and only safe characters are output |
| Filesystem.SafeUnit | filesystem.js:157 | the code units the class `[^a-z0-9_\-\.]` with the i flag leaves alone: ASCII letters of either case, digits, '_', '-' and '.' |
| Filesystem.SanitizeFixed | filesystem.js:156-158 | a name is left unchanged exactly when all its characters are safe |
| Filesystem.SanitizeIdempotent | filesystem.js:156-158 | sanitizing twice is sanitizing once |
| Filesystem.SanitizeSurrogates | filesystem.js:157 | a character above U+FFFF is two code units and becomes two '_' |
| Filesystem.SanitizedSegment | filesystem.js:118-121 | a non-empty sanitized name joins as exactly one segment |
| Filesystem.NewFilesystem | filesystem.js:109-112 | no documents, and a root with Path.from(rootPath)'s well-formed segments (the empty path for '') |
| Filesystem.RegisterDocument | filesystem.js:117-127 | throws exactly when the folder is neither a Path nor a string; otherwise the document's path is root/folder/sanitized name with the extension, and the map gains it under the entity's id, replacing any earlier one |
| Filesystem.NamedPath | filesystem.js:119-122 | for a non-empty name the path is the folder's segments followed by `sanitized.ext` |
| Filesystem.UnnamedPath | filesystem.js:119-122 | for an empty name the extension goes on the folder path itself |
| Filesystem.FolderPath | filesystem.js:119-120 | the folder path is the root's segments followed by the folder's |
| Filesystem.DocumentPath | filesystem.js:118-122 | for a non-empty name the path is the folder's segments then `sanitized.ext`; for an empty name the extension goes on the folder path itself |
| Filesystem.GetDocument | filesystem.js:132-134 | a document is found exactly when the id is in the map, and it is the one stored under that id |
| Filesystem.HasDocument | filesystem.js:139-141 | hasDocument is true exactly when getDocument finds a document |
| Filesystem.GetAfterRegister | filesystem.js:125-133 | a document just registered is what getDocument returns for its entity's id |
| Filesystem.GetOtherAfterRegister | filesystem.js:125-133 | registering leaves the lookup of every other id unchanged |
| Filesystem.EmptyFindsNothing | filesystem.js:109-133 | a new filesystem finds no document |

## Left out

- Floating point: readF32/F64, writeF32/F64, the F32 vectors, colours and CFrame, and the 8-bit colour scaling. IEEE-754 arithmetic is not modelled.
- Text encoding and decoding (TextEncoder, TextDecoder, toAscii, toString): strings cross the codec as their encoded bytes.
- writeByteRepeated, because it depends on `String.repeat` followed by encoding.
- writeStringOfSize, because the bytes past a shorter encoding are whatever the store held.
- The `view` DataView object. Its reads and writes are modelled directly on the byte store.
- setBuffer, because it is the reader's construction over new bytes (Readers.Open).
- baselib.js, asd.js and logger.js are not part of this model.
- Document.linkTo, the id and name getters, DocumentContext, getDocumentsInFolder and getAllDocuments. These are presentation and enumeration glue over the document map.
- Readers.Tell has no contract. It returns the position.
- Readers.ReadUnsigned: for w = 1 past the end, the source's readU8 returns undefined and still advances. The model reports an out-of-bounds failure, as it does for the wider reads, where DataView throws.
- Readers.ReadBool: past the end the source returns true, because undefined !== 0. The model reports an out-of-bounds failure.
- Readers.ReadLengthPrefixed: a one-byte prefix past the end is undefined in the source, and the subarray then reads as empty. The model fails instead.
- Readers.ReadSignedVector: when a later component throws, the source has already moved the cursor past the earlier ones. The model returns only the failure.
- Readers.Align requires a non-zero alignment. With 0 the source's position becomes NaN.
- A reader constructed without data has a null store. The model's reader always holds a byte sequence.
- Writers.WriteZeros takes a natural count. A negative count in the source shrinks the size.
- Values passed to writers are integers. Fractional and non-numeric JavaScript values, and doubles above 2^53, are not modelled.
- The round trips are stated over the bytes where a write put them (`Bytes.At`), not over one writer container. RoundTrips.WrittenAt connects the two.
- Filesystem.Sanitize and Containers.AssignAscii see a lone surrogate in a string as its own code unit, as JavaScript does. A Dafny string cannot hold a lone surrogate, so such strings are not modelled.
- Path segments, folder names, entity ids and entity names are strings. Other JavaScript values in those places (for example a name that is not a string, on which `replace` throws) are not modelled.
- The Path constructor's wrapping of a non-array argument is not modelled. Paths are built from segment lists or through Path.from.
- Containers.Reserve, Containers.Reallocate and the writers: a container whose size exceeds its capacity, after create(n) with n below the size or in a reader's store (capacity 0, size equal to the length), is not modelled.
- Writers.PadToAlignment: the default arguments alignment = 4 and fill = 0 are not modelled. Callers pass both.
- Paths.WithExtension: on the empty path the source sets the array property "-1" to "undefined.<ext>". The segment list stays empty, so toString, equals, parent and Path.from do not see it, but basename (and so a document's name) then reads "undefined.<ext>". The model's Path has no such slot, and its basename stays ''. Filesystem.DocumentPath and Filesystem.RegisterDocument reach this case when the root, the folder and the name are all empty.
- Paths.RelativeResolves requires a target without '..' segments. A '..' segment would be walked as a step up by anything that follows the relative path.

## Findings

| source | as written | input that shows it | evidently intended | confidence | as-written member | corrected member |
|---|---|---|---|---|---|---|
| binaryIO.js:569-592 | writeVarInt shifts with the signed 32-bit `>>`. For 2^31 the loop stops after one byte and stores 0x80, 0x00, which reads back as 0 | writeVarInt(2147483648) | the unsigned base-128 encoding 80 80 80 80 08 of 2^31 | not executed | VarInt.AsWrittenLosesBit31 | VarInt.Encode, with VarInt.RoundTrip proved |
| binaryIO.js:330 | readVarInt accumulates with the 32-bit `<<`, so the fifth group 8 << 28 wraps to -2^31 | the bytes 80 80 80 80 08 | the value 2^31 | not executed | VarInt.AsWrittenReadWraps | VarInt.Decode, with VarInt.DecodeBit31 and VarInt.RoundTrip proved |
| binaryIO.js:329-333 | readVarInt reads past the end. readU8 gives undefined, `undefined & 128` is 0, and the loop ends with the cursor beyond the size | the single byte 0x80 | an error for a number cut off by the end of the data | not executed | VarInt.AsWrittenReadsPastEnd | Readers.ReadVarIntChecked, with RoundTrips.CheckedVarIntRoundTrip proved |

=== FILE: bytes.dfy ===
/**
 * Bytes, little-endian integer layouts and the JavaScript integer conversions
 * (ToUint8/16/32, ToInt32) the codec relies on.
 */
module Bytes {

  type byte = b: int | 0 <= b < 256

  /** 256^w, the number of values a w-byte field can hold. */
  function Pow256(w: nat): (p: nat)
    ensures p >= 1
  {
    if w == 0 then 1 else 256 * Pow256(w - 1)
  }

  function Pow2(n: nat): (p: nat)
    ensures p >= 1
  {
    if n == 0 then 1 else 2 * Pow2(n - 1)
  }

  /** The w little-endian bytes of v modulo 256^w (what DataView.setUintN writes). */
  function LittleEndian(v: nat, w: nat): (r: seq<byte>)
    ensures |r| == w
  {
    if w == 0 then [] else [v % 256] + LittleEndian(v / 256, w - 1)
  }

  /** The unsigned value of a little-endian byte string (what DataView.getUintN reads). */
  function FromLittleEndian(bs: seq<byte>): (n: nat)
    ensures n < Pow256(|bs|)
  {
    if |bs| == 0 then 0 else bs[0] + 256 * FromLittleEndian(bs[1..])
  }

  /**
   * JavaScript's ToUintN for an integral number, one byte at a time: the low
   * byte, then the rest of the value shifted down by 8 bits.  ToUnsignedIsMod
   * shows it is reduction modulo 2^(8w).
   */
  function ToUnsigned(v: int, w: nat): (u: nat)
    ensures u < Pow256(w)
    decreases w
  {
    if w == 0 then 0 else v % 256 + 256 * ToUnsigned(v / 256, w - 1)
  }

  /** k fields of w bytes each span k * w bytes. */
  function Span(k: nat, w: nat): nat
  {
    if k == 0 then 0 else w + Span(k - 1, w)
  }

  /** Reading an unsigned w-byte pattern as two's complement (DataView.getIntN). */
  function ToSigned(u: int, w: nat): (r: int)
    ensures w >= 1 && 0 <= u < Pow256(w) ==> -(Pow256(w) / 2) <= r < Pow256(w) / 2
    ensures (u - r) % Pow256(w) == 0
  {
    var p := Pow256(w);
    if w > 0 && u >= p / 2 then
      assert p == 256 * Pow256(w - 1);
      DivModUnique(p, p, 1, 0);
      u - p
    else
      DivModUnique(0, p, 0, 0);
      u
  }

  /** The bytes DataView.setUintN / setIntN store for an integral value v. */
  function EncodeFixed(v: int, w: nat): (r: seq<byte>)
    ensures |r| == w
  {
    LittleEndian(ToUnsigned(v, w), w)
  }

  /** The w bytes written for v read back, little-endian, as v modulo 256^w. */
  lemma EncodeFixedValue(v: int, w: nat)
    ensures FromLittleEndian(EncodeFixed(v, w)) == v % Pow256(w)
  {
    LittleEndianRoundTrip(ToUnsigned(v, w), w);
    ToUnsignedInRange(ToUnsigned(v, w), w);
    ToUnsignedIsMod(v, w);
  }

  /** The byte string e occurs in data starting at pos. */
  predicate At(data: seq<byte>, pos: int, e: seq<byte>) {
    0 <= pos && pos + |e| <= |data| && data[pos..pos + |e|] == e
  }

  lemma AtSplit(data: seq<byte>, pos: int, e: seq<byte>)
    requires At(data, pos, e) && |e| >= 1
    ensures data[pos] == e[0] && At(data, pos + 1, e[1..])
  {
    assert data[pos..pos + |e|][0] == data[pos];
    assert data[pos + 1..pos + 1 + |e[1..]|] == data[pos..pos + |e|][1..];
  }

  /** Where a + b occurs, a occurs and b follows it. */
  lemma AtConcat(data: seq<byte>, pos: int, a: seq<byte>, b: seq<byte>)
    requires At(data, pos, a + b)
    ensures At(data, pos, a) && At(data, pos + |a|, b)
  {
    assert data[pos..pos + |a|] == (a + b)[..|a|];
    assert data[pos + |a|..pos + |a| + |b|] == (a + b)[|a|..];
  }

  /** Bytes placed between a prefix and anything else occur right after the prefix. */
  lemma AtMiddle(prefix: seq<byte>, e: seq<byte>, rest: seq<byte>)
    ensures At(prefix + e + rest, |prefix|, e)
  {
    assert (prefix + e + rest)[|prefix|..|prefix| + |e|] == e;
  }

  /** JavaScript's ToInt32 for an integral number. */
  function ToInt32(x: int): (r: int)
    ensures -0x8000_0000 <= r < 0x8000_0000
    ensures 0 <= x < 0x8000_0000 ==> r == x
    ensures x >= 0 ==> r <= x
    ensures (x - r) % 0x1_0000_0000 == 0
  {
    var m := x % 0x1_0000_0000;
    var q := x / 0x1_0000_0000;
    if m >= 0x8000_0000 then
      DivModUnique(x - (m - 0x1_0000_0000), 0x1_0000_0000, q + 1, 0);
      m - 0x1_0000_0000
    else
      DivModUnique(x - m, 0x1_0000_0000, q, 0);
      m
  }

  /** Euclidean division is unique: the quotient/remainder pair is determined. */
  lemma DivModUnique(v: int, m: int, q: int, x: int)
    requires m > 0
    requires v == m * q + x && 0 <= x < m
    ensures v / m == q && v % m == x
  {
    var q', x' := v / m, v % m;
    assert v == m * q' + x';
    if q' < q {
      assert m * q - m * q' == m * (q - q');
      MulAtLeast(m, q - q');
    } else if q' > q {
      assert m * q' - m * q == m * (q' - q);
      MulAtLeast(m, q' - q);
    }
  }

  lemma MulAtLeast(m: int, k: int)
    requires m > 0 && k >= 1
    ensures m * k >= m
  {
  }

  lemma ModSplit(v: int, p: nat)
    requires p >= 1
    ensures v % (256 * p) == v % 256 + 256 * ((v / 256) % p)
    ensures v / (256 * p) == (v / 256) / p
  {
    var q, r := v / 256, v % 256;
    var a, b := q / p, q % p;
    assert q == p * a + b;
    assert v == (256 * p) * a + (256 * b + r) by {
      assert v == 256 * q + r;
      assert 256 * q == 256 * (p * a) + 256 * b;
      assert 256 * (p * a) == (256 * p) * a;
    }
    DivModUnique(v, 256 * p, a, 256 * b + r);
  }

  /** Decoding the little-endian layout recovers the value reduced to w bytes. */
  lemma {:induction false} LittleEndianRoundTrip(v: nat, w: nat)
    ensures FromLittleEndian(LittleEndian(v, w)) == ToUnsigned(v, w)
  {
    if w > 0 {
      var bs := LittleEndian(v, w);
      assert bs[1..] == LittleEndian(v / 256, w - 1);
      LittleEndianRoundTrip(v / 256, w - 1);
    }
  }

  /** The byte-wise reduction is reduction modulo 256^w. */
  lemma {:induction false} ToUnsignedIsMod(v: int, w: nat)
    ensures ToUnsigned(v, w) == v % Pow256(w)
    decreases w
  {
    if w > 0 {
      ToUnsignedIsMod(v / 256, w - 1);
      ModSplit(v, Pow256(w - 1));
    }
  }

  /** A value that already fits in w bytes is left alone. */
  lemma {:induction false} ToUnsignedInRange(v: int, w: nat)
    requires 0 <= v < Pow256(w)
    ensures ToUnsigned(v, w) == v
  {
    if w > 0 {
      ToUnsignedInRange(v / 256, w - 1);
    }
  }

  /** Encoding a decoded byte string gives the same bytes back. */
  lemma {:induction false} FromLittleEndianRoundTrip(bs: seq<byte>)
    ensures LittleEndian(FromLittleEndian(bs), |bs|) == bs
  {
    if |bs| > 0 {
      var n := FromLittleEndian(bs[1..]);
      var v := bs[0] + 256 * n;
      DivModUnique(v, 256, n, bs[0]);
      FromLittleEndianRoundTrip(bs[1..]);
    }
  }

  /** Every in-range unsigned value survives EncodeFixed then FromLittleEndian. */
  lemma UnsignedRoundTrip(v: int, w: nat)
    requires 0 <= v < Pow256(w)
    ensures FromLittleEndian(EncodeFixed(v, w)) == v
  {
    ToUnsignedInRange(v, w);
    LittleEndianRoundTrip(v, w);
  }

  /** Every in-range signed value survives EncodeFixed, FromLittleEndian and ToSigned. */
  lemma SignedRoundTrip(v: int, w: nat)
    requires w > 0
    requires -(Pow256(w) / 2) <= v < Pow256(w) / 2
    ensures ToSigned(FromLittleEndian(EncodeFixed(v, w)), w) == v
  {
    var u := ToUnsigned(v, w);
    LittleEndianRoundTrip(u, w);
    ToUnsignedInRange(u, w);
    SignedOfUnsigned(v, w);
  }

  lemma SignedOfUnsigned(v: int, w: nat)
    requires w > 0
    requires -(Pow256(w) / 2) <= v < Pow256(w) / 2
    ensures ToSigned(ToUnsigned(v, w), w) == v
  {
    var p := Pow256(w);
    ToUnsignedIsMod(v, w);
    if v >= 0 {
      DivModUnique(v, p, 0, v);
    } else {
      DivModUnique(v, p, -1, v + p);
    }
  }
}

=== FILE: containers.dfy ===
/**
 * BinaryContainer: a byte store with a logical size and an allocated capacity.
 * The store starts out unallocated (null); operations that dereference an
 * unallocated store throw, which is modelled as Err(NoStore).
 */
module Containers {
  import opened Results
  import opened Bytes
  import opened Text

  datatype Container = Container(data: Option<seq<byte>>, size: nat, capacity: nat)

  /**
   * The shape the writers rely on: an unallocated store has size and capacity
   * 0, and an allocated one holds exactly `capacity` bytes, at least `size`
   * of them meaningful.  The source does not enforce it everywhere: create(n)
   * with n below the size, and a reader's store (capacity 0, size equal to
   * the length) break it, and such containers are outside the model.
   */
  predicate Valid(c: Container) {
    match c.data
    case None => c.capacity == 0 && c.size == 0
    case Some(bytes) => |bytes| == c.capacity && c.size <= c.capacity
  }

  /** A freshly constructed container: no store, size 0, capacity 0. */
  function Empty(): (c: Container)
    ensures Valid(c) && c.size == 0
  {
    Container(None, 0, 0)
  }

  function Zeros(n: nat): (z: seq<byte>)
    ensures |z| == n && forall i :: 0 <= i < n ==> z[i] == 0
  {
    seq(n, _ => 0)
  }

  /**
   * The store holds the `size` meaningful bytes: all that reading them
   * needs.  Every valid container does, and so does a reader's store, whose
   * capacity stays 0.
   */
  predicate HoldsSize(c: Container) {
    match c.data
    case None => c.size == 0
    case Some(bytes) => c.size <= |bytes|
  }

  /**
   * The container part of new BinaryReader(data): the given store with size
   * data.length and the capacity left at 0.
   */
  function ReaderStore(data: seq<byte>): (c: Container)
    ensures HoldsSize(c) && Contents(c) == data
    ensures Valid(c) <==> |data| == 0
  {
    Container(Some(data), |data|, 0)
  }

  /** The meaningful bytes [0, size) of a container. */
  function Contents(c: Container): (bs: seq<byte>)
    requires HoldsSize(c)
    ensures |bs| == c.size
  {
    match c.data
    case None => []
    case Some(bytes) => bytes[..c.size]
  }

  /**
   * create(capacity): a zero-filled store of exactly `capacity` bytes; the
   * size field is left as it was.  A negative length is a RangeError from
   * the Uint8Array constructor.
   */
  function Create(c: Container, capacity: int): (r: Result<Container>)
    ensures r.Err? <==> capacity < 0
    ensures r.Err? ==> r.error == OutOfBounds
    ensures r.Ok? ==>
      && r.value.data.Some? && r.value.data.value == Zeros(capacity)
      && r.value.capacity == capacity && r.value.size == c.size
    ensures r.Ok? ==> (Valid(r.value) <==> c.size <= capacity)
  {
    if capacity < 0 then Err(OutOfBounds)
    else Ok(Container(Some(Zeros(capacity)), c.size, capacity))
  }

  /**
   * reserve(n): a no-op unless n exceeds the capacity; then the store is
   * re-allocated to exactly n bytes, the old capacity's bytes are copied and
   * the rest is zero.  An unallocated store cannot be copied from.
   */
  function Reserve(c: Container, n: int): (r: Result<Container>)
    requires Valid(c)
    ensures n <= c.capacity ==> r == Ok(c)
    ensures n > c.capacity ==> (r.Ok? <==> c.data.Some?)
    ensures r.Err? ==> r.error == NoStore
    ensures r.Ok? ==> Valid(r.value) && r.value.size == c.size
    ensures r.Ok? && n > c.capacity ==>
      && r.value.capacity == n
      && r.value.data.value[..c.capacity] == c.data.value
      && forall i :: c.capacity <= i < n ==> r.value.data.value[i] == 0
  {
    if n <= c.capacity then Ok(c)
    else if c.data.None? then Err(NoStore)
    else Ok(Container(Some(c.data.value[..c.capacity] + Zeros(n - c.capacity)), c.size, n))
  }

  /**
   * reallocate(n): unconditionally re-allocate to exactly n bytes, copying
   * only the meaningful [0, size) prefix.  A negative length or one below the
   * size is a RangeError in the source; an unallocated store a TypeError.
   */
  function Reallocate(c: Container, n: int): (r: Result<Container>)
    requires Valid(c)
    ensures r.Ok? <==> c.data.Some? && c.size <= n
    ensures r.Err? && n < 0 ==> r.error == OutOfBounds
    ensures r.Ok? ==>
      && Valid(r.value)
      && r.value.capacity == n && r.value.size == c.size
      && Contents(r.value) == Contents(c)
      && forall i :: c.size <= i < n ==> r.value.data.value[i] == 0
  {
    if n < 0 then Err(OutOfBounds)
    else if c.data.None? then Err(NoStore)
    else if n < c.size then Err(OutOfBounds)
    else Ok(Container(Some(c.data.value[..c.size] + Zeros(n - c.size)), c.size, n))
  }

  /**
   * assignAscii(s): the store becomes one byte per UTF-16 code unit of s,
   * the low 8 bits of the unit (charCodeAt(i) & 0xFF); size and capacity
   * become str.length, the number of code units.  On Latin-1 text that is
   * one byte per character, equal to its code.
   */
  function AssignAscii(c: Container, s: string): (r: Container)
    ensures Valid(r) && r.size == |Utf16(s)| && r.capacity == |Utf16(s)|
    ensures forall i :: 0 <= i < |Utf16(s)| ==> Contents(r)[i] == Utf16(s)[i] % 256
    ensures (forall i :: 0 <= i < |s| ==> (s[i] as int) < 256) ==>
      r.size == |s| && forall i :: 0 <= i < |s| ==> Contents(r)[i] == s[i] as int
  {
    var units := Utf16(s);
    var bytes: seq<byte> := seq(|units|, i requires 0 <= i < |units| => units[i] % 256);
    LowBytesOfLatin1(s, bytes);
    var r := Container(Some(bytes), |units|, |units|);
    assert Contents(r) == bytes;
    r
  }

  /** On Latin-1 text the low bytes of the code units are the character codes. */
  lemma LowBytesOfLatin1(s: string, bytes: seq<byte>)
    requires |bytes| == |Utf16(s)| && forall i :: 0 <= i < |bytes| ==> bytes[i] == Utf16(s)[i] % 256
    ensures (forall i :: 0 <= i < |s| ==> (s[i] as int) < 256) ==>
      |bytes| == |s| && forall i :: 0 <= i < |s| ==> bytes[i] == s[i] as int
  {
    if forall i :: 0 <= i < |s| ==> (s[i] as int) < 256 {
      Utf16OfBasic(s);
    }
  }

  /**
   * On strings whose characters all fit in a byte (Latin-1), assignAscii loses
   * nothing: two such strings that give the same bytes are equal.
   */
  lemma AssignAsciiInjectiveOnLatin1(c: Container, s: string, t: string)
    requires forall i :: 0 <= i < |s| ==> (s[i] as int) < 256
    requires forall i :: 0 <= i < |t| ==> (t[i] as int) < 256
    requires Contents(AssignAscii(c, s)) == Contents(AssignAscii(c, t))
    ensures s == t
  {
    var a, b := Contents(AssignAscii(c, s)), Contents(AssignAscii(c, t));
    assert |s| == |a| == |b| == |t|;
    forall i | 0 <= i < |s|
      ensures s[i] == t[i]
    {
      assert a[i] == s[i] as int && b[i] == t[i] as int;
    }
  }

  /**
   * A character above U+FFFF is two code units, and each keeps its low 8
   * bits: U+1F600 (D83D DE00) stores as 3D 00.
   */
  lemma AssignAsciiSurrogates(c: Container)
    ensures Contents(AssignAscii(c, "\U{1F600}")) == [0x3D, 0x00]
  {
    SurrogatePairExample();
  }

  /** Characters above 255 are truncated, not rejected: 'Ā' (U+0100) stores as 0. */
  lemma AssignAsciiTruncates(c: Container)
    ensures Contents(AssignAscii(c, "Ā")) == [0]
  {
  }
}

=== FILE: filesystem.dfy ===
/**
 * The virtual filesystem's document registry: documents are filed under
 * the root, a folder and a sanitized entity name with an extension, and
 * are found again by the entity's id.
 */
module Filesystem {
  import opened Results
  import opened Paths
  import opened Text

  /** The code units a file name keeps: ASCII letters, digits, '_', '-' and '.'. */
  predicate SafeUnit(u: int) {
    ('a' as int <= u <= 'z' as int) || ('A' as int <= u <= 'Z' as int) || ('0' as int <= u <= '9' as int)
    || u == '_' as int || u == '-' as int || u == '.' as int
  }

  predicate Safe(c: char) {
    SafeUnit(c as int)
  }

  /** n underscores. */
  function Underscores(n: nat): (r: string)
    ensures |r| == n && forall i :: 0 <= i < n ==> r[i] == '_'
  {
    seq(n, _ => '_')
  }

  /**
   * _sanitizeFilename: the regular expression has no u flag, so it works on
   * UTF-16 code units: every unit outside the safe set becomes '_', and a
   * character above U+FFFF becomes two.
   */
  function Sanitize(name: string): (r: string)
    ensures |r| == |Utf16(name)|
    ensures forall i :: 0 <= i < |r| ==> Safe(r[i])
    ensures forall i :: 0 <= i < |r| ==>
      r[i] as int == if SafeUnit(Utf16(name)[i]) then Utf16(name)[i] else '_' as int
    decreases |name|
  {
    if |name| == 0 then ""
    else
      var head := if Safe(name[0]) then [name[0]] else Underscores(|CodeUnits(name[0])|);
      var rest := Sanitize(name[1..]);
      assert Utf16(name) == CodeUnits(name[0]) + Utf16(name[1..]);
      head + rest
  }

  /** A name is left alone exactly when all its characters are safe. */
  lemma SanitizeFixed(name: string)
    ensures Sanitize(name) == name <==> forall i :: 0 <= i < |name| ==> Safe(name[i])
  {
    if forall i :: 0 <= i < |name| ==> Safe(name[i]) {
      Utf16OfBasic(name);
      assert forall i :: 0 <= i < |name| ==> Sanitize(name)[i] == name[i];
    }
  }

  /** Sanitizing twice is sanitizing once. */
  lemma SanitizeIdempotent(name: string)
    ensures Sanitize(Sanitize(name)) == Sanitize(name)
  {
    SanitizeFixed(Sanitize(name));
  }

  /** Each half of a surrogate pair is unsafe: "a\U{1F600}" sanitizes to "a__". */
  lemma SanitizeSurrogates()
    ensures Sanitize("a\U{1F600}") == "a__"
  {
    SurrogatePairExample();
    Utf16Append("a", "\U{1F600}");
    assert "a" + "\U{1F600}" == "a\U{1F600}";
  }

  /** A sanitized non-empty name is a single path segment. */
  lemma SanitizedSegment(name: string)
    requires |name| > 0
    ensures Segments(Sanitize(name)) == [Sanitize(name)]
  {
    var r := Sanitize(name);
    assert |r| > 0;
    assert '/' !in r by {
      forall i | 0 <= i < |r|
        ensures r[i] != '/'
      {
        assert Safe(r[i]);
      }
    }
    SplitPlain(r);
    NonEmptyOne(r);
  }

  /** What registerDocument reads of an entity. */
  datatype Entity = Entity(id: string, name: string)

  datatype Document = Document(path: Path, entity: Entity)

  /** A VirtualFilesystem: the root path and the documents by entity id. */
  datatype Filesystem = Filesystem(root: Path, documents: map<string, Document>)

  /**
   * new VirtualFilesystem(rootPath): no documents, and a root of the
   * non-empty pieces of rootPath ('' gives the empty path).
   */
  function NewFilesystem(rootPath: string): (fs: Filesystem)
    ensures fs.documents == map[]
    ensures From([StringPart(rootPath)]) == Ok(fs.root)
    ensures forall i :: 0 <= i < |fs.root.segments| ==> WellFormed(fs.root.segments[i])
  {
    FromOne(StringPart(rootPath));
    var root := if |rootPath| > 0 then From([StringPart(rootPath)]).value else Path([]);
    Filesystem(root, map[])
  }

  /**
   * Where registerDocument files a document once the folder has been
   * joined to the root: the sanitized name is joined as a string, then the
   * last segment gains the extension.
   */
  function DocumentPath(inFolder: Path, name: string, extension: string): (r: Path)
    ensures |name| > 0 ==> r.segments == inFolder.segments + [Sanitize(name) + "." + extension]
    ensures |name| == 0 ==> r == WithExtension(inFolder, extension)
  {
    if |name| > 0 then
      NamedPath(inFolder, name, extension);
      WithExtension(Join(inFolder, [StringPart(Sanitize(name))]).value, extension)
    else
      UnnamedPath(inFolder, extension);
      WithExtension(Join(inFolder, [StringPart(Sanitize(name))]).value, extension)
  }

  /**
   * registerDocument(folder, entity, extension): the document is filed at
   * root / folder / sanitized name, with the extension added to the last
   * segment, and replaces whatever was registered under the entity's id.
   * A folder that is neither a Path nor a string throws.
   */
  function RegisterDocument(fs: Filesystem, folder: Part, entity: Entity, extension: string): (r: Result<(Filesystem, Document)>)
    ensures r.Err? <==> folder.OtherPart?
    ensures r.Ok? ==> r.value.1 == Document(DocumentPath(Join(fs.root, [folder]).value, entity.name, extension), entity)
    ensures r.Ok? ==> r.value.0 == Filesystem(fs.root, fs.documents[entity.id := r.value.1])
  {
    match Join(fs.root, [folder])
    case Err(e) => Err(e)
    case Ok(inFolder) =>
      var doc := Document(DocumentPath(inFolder, entity.name, extension), entity);
      Ok((Filesystem(fs.root, fs.documents[entity.id := doc]), doc))
  }

  /**
   * With a non-empty name the path is the folder path's segments followed
   * by the sanitized name with the extension.
   */
  lemma NamedPath(inFolder: Path, name: string, extension: string)
    requires |name| > 0
    ensures WithExtension(Join(inFolder, [StringPart(Sanitize(name))]).value, extension).segments
      == inFolder.segments + [Sanitize(name) + "." + extension]
  {
    SanitizedSegment(name);
    FromOne(StringPart(Sanitize(name)));
    var named := Join(inFolder, [StringPart(Sanitize(name))]).value;
    assert named.segments == inFolder.segments + [Sanitize(name)];
    assert named.segments[..|named.segments| - 1] == inFolder.segments;
  }

  /**
   * With an empty name nothing is added for it, so the extension goes to
   * the folder's last segment.  When root and folder are both empty the
   * segment list stays empty; the source's hidden "-1" property is not
   * modelled (see Paths.WithExtension).
   */
  lemma UnnamedPath(inFolder: Path, extension: string)
    ensures WithExtension(Join(inFolder, [StringPart(Sanitize(""))]).value, extension) == WithExtension(inFolder, extension)
  {
    assert Split("") == [""];
    assert NonEmpty([""]) == [];
    assert Sanitize("") == "";
    FromOne(StringPart(""));
    var named := Join(inFolder, [StringPart("")]).value;
    assert named.segments == inFolder.segments + [];
    assert named == inFolder;
  }

  /** The folder path is the root's segments followed by the folder's own. */
  lemma FolderPath(fs: Filesystem, folder: Part)
    requires !folder.OtherPart?
    ensures Join(fs.root, [folder]).value.segments == fs.root.segments + From([folder]).value.segments
  {
  }

  /** getDocument(id): the document registered under id, if any. */
  function GetDocument(fs: Filesystem, id: string): (r: Option<Document>)
    ensures r.Some? <==> id in fs.documents
    ensures r.Some? ==> r.value == fs.documents[id]
  {
    if id in fs.documents then Some(fs.documents[id]) else None
  }

  /** hasDocument(id): whether getDocument finds something. */
  function HasDocument(fs: Filesystem, id: string): (has: bool)
    ensures has <==> GetDocument(fs, id).Some?
  {
    id in fs.documents
  }

  /** A document just registered is found under its entity's id. */
  lemma GetAfterRegister(fs: Filesystem, folder: Part, entity: Entity, extension: string)
    requires !folder.OtherPart?
    ensures var r := RegisterDocument(fs, folder, entity, extension);
      r.Ok? && GetDocument(r.value.0, entity.id) == Some(r.value.1)
  {
  }

  /** Registering leaves every other id's lookup as it was. */
  lemma GetOtherAfterRegister(fs: Filesystem, folder: Part, entity: Entity, extension: string, id: string)
    requires !folder.OtherPart? && id != entity.id
    ensures var r := RegisterDocument(fs, folder, entity, extension);
      r.Ok? && GetDocument(r.value.0, id) == GetDocument(fs, id)
  {
  }

  /** A fresh filesystem finds nothing. */
  lemma EmptyFindsNothing(rootPath: string, id: string)
    ensures GetDocument(NewFilesystem(rootPath), id) == None
  {
  }
}

=== FILE: hex.dfy ===
/**
 * Hex text views of a container: clearBinaryHexData, toHex and assignHex.
 */
module Hex {
  import opened Results
  import opened Bytes
  import opened Containers

  predicate IsHexDigit(ch: char) {
    ('0' <= ch <= '9') || ('a' <= ch <= 'f') || ('A' <= ch <= 'F')
  }

  /** The value parseInt(ch, 16) gives a single hex digit. */
  function HexValue(ch: char): (n: nat)
    requires IsHexDigit(ch)
    ensures n < 16
  {
    if '0' <= ch <= '9' then ch as int - '0' as int
    else if 'a' <= ch <= 'f' then ch as int - 'a' as int + 10
    else ch as int - 'A' as int + 10
  }

  /** The lowercase digit Number.prototype.toString(16) prints for n < 16. */
  function HexDigit(n: nat): (ch: char)
    requires n < 16
    ensures IsHexDigit(ch) && HexValue(ch) == n
    ensures ch != 'x' && ch != 'X'
  {
    if n < 10 then ('0' as int + n) as char else ('a' as int + n - 10) as char
  }

  /** The characters the regular-expression class \s matches. */
  predicate IsWhitespace(ch: char) {
    var c := ch as int;
    c == 0x09 || c == 0x0A || c == 0x0B || c == 0x0C || c == 0x0D || c == 0x20
    || c == 0xA0 || c == 0x1680 || (0x2000 <= c <= 0x200A) || c == 0x2028 || c == 0x2029
    || c == 0x202F || c == 0x205F || c == 0x3000 || c == 0xFEFF
  }

  predicate NotWhitespace(ch: char) {
    !IsWhitespace(ch)
  }

  /** The characters of s that `keep` accepts, in order. */
  function Filter(keep: char -> bool, s: string): (r: string)
    ensures |r| <= |s|
    ensures forall i :: 0 <= i < |r| ==> keep(r[i])
    ensures (forall i :: 0 <= i < |s| ==> keep(s[i])) ==> r == s
    ensures forall i :: 0 <= i < |s| && keep(s[i]) ==> s[i] in r
  {
    if |s| == 0 then []
    else (if keep(s[0]) then [s[0]] else []) + Filter(keep, s[1..])
  }

  lemma {:induction false} FilterAppend(keep: char -> bool, a: string, b: string)
    ensures Filter(keep, a + b) == Filter(keep, a) + Filter(keep, b)
  {
    if |a| == 0 {
      assert a + b == b;
    } else {
      assert (a + b)[0] == a[0];
      assert (a + b)[1..] == a[1..] + b;
      FilterAppend(keep, a[1..], b);
    }
  }

  /** One character is kept exactly when `keep` accepts it; with FilterAppend this fixes Filter's order and count. */
  lemma FilterOne(keep: char -> bool, c: char)
    ensures Filter(keep, [c]) == if keep(c) then [c] else []
  {
  }

  /** Whitespace is not a hex digit, so dropping it first changes nothing for the hex filter. */
  lemma {:induction false} HexFilterIgnoresWhitespace(s: string)
    ensures Filter(IsHexDigit, Filter(NotWhitespace, s)) == Filter(IsHexDigit, s)
    decreases |s|
  {
    if |s| > 0 {
      HexFilterIgnoresWhitespace(s[1..]);
      var w := Filter(NotWhitespace, s[1..]);
      if NotWhitespace(s[0]) {
        assert Filter(NotWhitespace, s) == [s[0]] + w;
        assert ([s[0]] + w)[0] == s[0] && ([s[0]] + w)[1..] == w;
      } else {
        assert Filter(NotWhitespace, s) == w;
      }
    }
  }

  /** One leading "0x" or "0X" is removed; nothing else is. */
  function StripHexPrefix(s: string): (r: string)
    ensures |s| >= 2 && s[0] == '0' && (s[1] == 'x' || s[1] == 'X') ==> r == s[2..]
    ensures !(|s| >= 2 && s[0] == '0' && (s[1] == 'x' || s[1] == 'X')) ==> r == s
  {
    if |s| >= 2 && s[0] == '0' && (s[1] == 'x' || s[1] == 'X') then s[2..] else s
  }

  /**
   * clearBinaryHexData: drop all whitespace, then one leading 0x/0X, then
   * every character that is not a hex digit.
   */
  function ClearHexData(s: string): (r: string)
    ensures forall i :: 0 <= i < |r| ==> IsHexDigit(r[i])
    ensures (forall i :: 0 <= i < |s| ==> IsHexDigit(s[i])) ==> r == s
    ensures |r| <= |s|
  {
    var noSpace := Filter(NotWhitespace, s);
    Filter(IsHexDigit, StripHexPrefix(noSpace))
  }

  /** Text is a 0x or 0X prefix once its whitespace is gone. */
  predicate HasHexPrefix(s: string) {
    var w := Filter(NotWhitespace, s);
    |w| >= 2 && w[0] == '0' && (w[1] == 'x' || w[1] == 'X')
  }

  /** Without a 0x/0X prefix, cleaning keeps exactly the hex digits, in order. */
  lemma ClearUnprefixed(s: string)
    requires !HasHexPrefix(s)
    ensures ClearHexData(s) == Filter(IsHexDigit, s)
  {
    HexFilterIgnoresWhitespace(s);
  }

  /**
   * With a 0x/0X prefix (after the whitespace is gone), cleaning keeps the
   * input's hex digits, in order, except the prefix's leading '0'.
   */
  lemma ClearPrefixed(s: string)
    requires HasHexPrefix(s)
    ensures "0" + ClearHexData(s) == Filter(IsHexDigit, s)
  {
    var w := Filter(NotWhitespace, s);
    assert w == w[..1] + w[1..2] + w[2..];
    FilterAppend(IsHexDigit, w[..1] + w[1..2], w[2..]);
    FilterAppend(IsHexDigit, w[..1], w[1..2]);
    assert w[..1] == ['0'] && w[1..2] == [w[1]];
    FilterOne(IsHexDigit, '0');
    FilterOne(IsHexDigit, w[1]);
    HexFilterIgnoresWhitespace(s);
  }

  /** Text that starts with 0x or 0X cleans to the hex digits after those two characters, in order. */
  lemma ClearAfterPrefix(p: string, s: string)
    requires p == "0x" || p == "0X"
    ensures ClearHexData(p + s) == Filter(IsHexDigit, s)
  {
    FilterAppend(NotWhitespace, p, s);
    assert Filter(NotWhitespace, p) == p;
    var w := p + Filter(NotWhitespace, s);
    assert StripHexPrefix(w) == Filter(NotWhitespace, s);
    HexFilterIgnoresWhitespace(s);
  }

  /** The prefix itself is removed: "0x" or "0X" followed by hex digits cleans to the digits. */
  lemma PrefixStripped(d: string)
    requires forall i :: 0 <= i < |d| ==> IsHexDigit(d[i])
    ensures ClearHexData("0x" + d) == d
    ensures ClearHexData("0X" + d) == d
  {
    ClearAfterPrefix("0x", d);
    ClearAfterPrefix("0X", d);
  }

  /** Cleaning already-clean text changes nothing. */
  lemma ClearHexDataIdempotent(s: string)
    ensures ClearHexData(ClearHexData(s)) == ClearHexData(s)
  {
  }

  /** The three characters toHex renders for one byte. */
  function HexCell(b: byte): (r: string)
    ensures |r| == 3 && IsHexDigit(r[0]) && IsHexDigit(r[1]) && r[2] == ' '
    ensures 16 * HexValue(r[0]) + HexValue(r[1]) == b
  {
    [HexDigit(b / 16), HexDigit(b % 16), ' ']
  }

  /** The text toHex renders for a byte string: two lowercase digits and a space per byte. */
  function HexOf(bs: seq<byte>): (r: string)
    ensures |r| == 3 * |bs|
    ensures forall i :: 0 <= i < |bs| ==>
      r[3 * i] == HexDigit(bs[i] / 16) && r[3 * i + 1] == HexDigit(bs[i] % 16) && r[3 * i + 2] == ' '
  {
    if |bs| == 0 then ""
    else
      var n := |bs| - 1;
      HexOf(bs[..n]) + HexCell(bs[n])
  }

  /** The digits of HexOf(bs) with the separators removed. */
  function DigitsOf(bs: seq<byte>): (r: string)
    ensures |r| == 2 * |bs|
    ensures forall i :: 0 <= i < |bs| ==>
      r[2 * i] == HexDigit(bs[i] / 16) && r[2 * i + 1] == HexDigit(bs[i] % 16)
  {
    if |bs| == 0 then ""
    else
      var n := |bs| - 1;
      DigitsOf(bs[..n]) + [HexDigit(bs[n] / 16), HexDigit(bs[n] % 16)]
  }

  lemma {:induction false} RemoveSeparators(bs: seq<byte>)
    ensures Filter(NotWhitespace, HexOf(bs)) == DigitsOf(bs)
  {
    if |bs| > 0 {
      var n := |bs| - 1;
      var tail := HexCell(bs[n]);
      FilterAppend(NotWhitespace, HexOf(bs[..n]), tail);
      RemoveSeparators(bs[..n]);
      CellDigits(tail[0], tail[1]);
    }
  }

  lemma CellDigits(a: char, b: char)
    requires IsHexDigit(a) && IsHexDigit(b)
    ensures Filter(NotWhitespace, [a, b, ' ']) == [a, b]
  {
    var cell := [a, b, ' '];
    assert cell[1..] == [b, ' '] && cell[1..][1..] == [' '] && cell[1..][1..][1..] == [];
    assert Filter(NotWhitespace, [' ']) == [];
  }

  /** toHex's loop body appends one cell per byte. */
  lemma HexOfSnoc(bs: seq<byte>, i: nat)
    requires i < |bs|
    ensures HexOf(bs[..i + 1]) == HexOf(bs[..i]) + HexCell(bs[i])
  {
    assert bs[..i + 1][..i] == bs[..i];
  }

  /**
   * toHex: renders bytes [0, size) as lowercase two-digit hex pairs, each
   * followed by one space.
   */
  method ToHex(c: Container) returns (s: string)
    requires HoldsSize(c)
    ensures s == HexOf(Contents(c))
    ensures |s| == 3 * c.size
    ensures forall i :: 0 <= i < c.size ==>
      && s[3 * i] == HexDigit(Contents(c)[i] / 16)
      && s[3 * i + 1] == HexDigit(Contents(c)[i] % 16)
      && s[3 * i + 2] == ' '
  {
    var bytes := Contents(c);
    s := "";
    var i := 0;
    while i < c.size
      invariant 0 <= i <= c.size
      invariant s == HexOf(bytes[..i])
    {
      HexOfSnoc(bytes, i);
      s := s + HexCell(bytes[i]);
      i := i + 1;
    }
    assert bytes[..i] == bytes;
  }

  /** The byte value of the digit pair starting at clean[k]. */
  function PairValue(clean: string, k: nat): (b: byte)
    requires k + 1 < |clean|
    requires IsHexDigit(clean[k]) && IsHexDigit(clean[k + 1])
  {
    16 * HexValue(clean[k]) + HexValue(clean[k + 1])
  }

  /** One byte per digit pair of an even-length run of hex digits. */
  method DecodePairs(clean: string) returns (buf: seq<byte>)
    requires |clean| % 2 == 0
    requires forall i :: 0 <= i < |clean| ==> IsHexDigit(clean[i])
    ensures |buf| == |clean| / 2
    ensures forall j :: 0 <= j < |buf| ==> buf[j] == 16 * HexValue(clean[2 * j]) + HexValue(clean[2 * j + 1])
  {
    buf := [];
    var i := 0;
    while i < |clean|
      invariant 0 <= i <= |clean| && i % 2 == 0
      invariant |buf| == i / 2
      invariant forall j :: 0 <= j < |buf| ==> buf[j] == PairValue(clean, 2 * j)
    {
      buf := buf + [PairValue(clean, i)];
      i := i + 2;
    }
  }

  /**
   * assignHex(text): clean the text; an odd digit count throws; otherwise
   * the store becomes one byte per digit pair, size = capacity = digits / 2.
   */
  method AssignHex(c: Container, text: string) returns (r: Result<Container>)
    ensures var clean := ClearHexData(text);
      && (r.Err? <==> |clean| % 2 != 0)
      && (r.Err? ==> r.error == MalformedInput)
      && (r.Ok? ==>
        && Valid(r.value)
        && r.value.size == |clean| / 2 && r.value.capacity == |clean| / 2
        && forall i :: 0 <= i < r.value.size ==>
             Contents(r.value)[i] == 16 * HexValue(clean[2 * i]) + HexValue(clean[2 * i + 1]))
  {
    var clean := ClearHexData(text);
    if |clean| % 2 != 0 {
      return Err(MalformedInput);
    }
    var buf := DecodePairs(clean);
    var out := Container(Some(buf), |buf|, |buf|);
    assert Contents(out) == buf;
    r := Ok(out);
  }

  /**
   * assignHex(toHex()) restores the bytes: cleaning the rendered text leaves
   * exactly two digits per byte whose pair value is that byte.
   */
  lemma HexRoundTrip(bs: seq<byte>)
    ensures var clean := ClearHexData(HexOf(bs));
      && |clean| == 2 * |bs|
      && forall i :: 0 <= i < |bs| ==> 16 * HexValue(clean[2 * i]) + HexValue(clean[2 * i + 1]) == bs[i]
  {
    RemoveSeparators(bs);
    var digits := DigitsOf(bs);
    DigitsAreHex(bs);
    assert StripHexPrefix(digits) == digits by {
      if |digits| >= 2 {
        assert digits[1] == HexDigit(bs[0] % 16);
      }
    }
    assert ClearHexData(HexOf(bs)) == digits;
    forall i | 0 <= i < |bs|
      ensures 16 * HexValue(digits[2 * i]) + HexValue(digits[2 * i + 1]) == bs[i]
    {
      assert digits[2 * i] == HexDigit(bs[i] / 16);
    }
  }

  lemma DigitsAreHex(bs: seq<byte>)
    ensures forall j :: 0 <= j < |DigitsOf(bs)| ==> IsHexDigit(DigitsOf(bs)[j])
  {
    var d := DigitsOf(bs);
    forall j | 0 <= j < |d|
      ensures IsHexDigit(d[j])
    {
      var i := j / 2;
      assert d[2 * i] == HexDigit(bs[i] / 16) && d[2 * i + 1] == HexDigit(bs[i] % 16);
      if j % 2 == 0 {
        assert j == 2 * i;
      } else {
        assert j == 2 * i + 1;
      }
    }
  }

  /** toHex renders the bytes 0x1A, 0x2B as "1a 2b ". */
  lemma HexOfExample()
    ensures HexOf([0x1A, 0x2B]) == "1a 2b "
  {
    var bs: seq<byte> := [0x1A, 0x2B];
    assert bs[..1] == [0x1A];
    assert bs[..1][..0] == [];
    assert HexOf(bs[..1]) == "1a ";
  }
}

=== FILE: paths.dfy ===
/**
 * The path algebra of the virtual filesystem: a path is a list of string
 * segments, built from strings split on '/' and from other paths, and
 * printed by joining its segments with '/'.  Splitting on '/' and testing
 * for emptiness give the same pieces whether a string is read as Unicode
 * characters or as UTF-16 code units, since '/' is one unit and never part
 * of a surrogate pair.
 */
module Paths {
  import opened Results

  datatype Path = Path(segments: seq<string>)

  /** A value handed to Path.from, join or equals: a Path, a string, or anything else. */
  datatype Part = PathPart(path: Path) | StringPart(text: string) | OtherPart

  // ---------------------------------------------------------------- '/'

  /** String.prototype.split('/'): the pieces between slashes, empty ones included. */
  function Split(s: string): (pieces: seq<string>)
    ensures |pieces| >= 1
    ensures forall i :: 0 <= i < |pieces| ==> '/' !in pieces[i]
    decreases |s|
  {
    if |s| == 0 then [""]
    else
      var rest := Split(s[1..]);
      if s[0] == '/' then [""] + rest
      else
        assert '/' !in rest[0];
        [[s[0]] + rest[0]] + rest[1..]
  }

  /** Array.prototype.join('/'). */
  function JoinSlash(pieces: seq<string>): string
    decreases |pieces|
  {
    if |pieces| == 0 then ""
    else if |pieces| == 1 then pieces[0]
    else pieces[0] + "/" + JoinSlash(pieces[1..])
  }

  /** Joining a first piece and the rest: the first piece alone, or it, a slash and the rest joined. */
  lemma JoinCons(first: string, rest: seq<string>)
    ensures JoinSlash([first] + rest) == if |rest| == 0 then first else first + "/" + JoinSlash(rest)
  {
    assert ([first] + rest)[1..] == rest;
  }

  /** Joining the pieces of a split restores the string, for every string. */
  lemma {:induction false} JoinSplit(s: string)
    ensures JoinSlash(Split(s)) == s
    decreases |s|
  {
    if |s| > 0 {
      var rest := Split(s[1..]);
      JoinSplit(s[1..]);
      if s[0] == '/' {
        JoinCons("", rest);
        assert s == "/" + s[1..];
      } else {
        JoinGlued(s[0], rest);
        assert s == [s[0]] + s[1..];
      }
    }
  }

  /** A character glued to the first piece comes first in the join. */
  lemma JoinGlued(c: char, rest: seq<string>)
    requires |rest| >= 1
    ensures JoinSlash([[c] + rest[0]] + rest[1..]) == [c] + JoinSlash(rest)
  {
    var x, t := rest[0], rest[1..];
    assert [x] + t == rest;
    JoinCons([c] + x, t);
    JoinCons(x, t);
    if |t| > 0 {
      Assoc4([c], x, "/", JoinSlash(t));
    }
  }

  lemma Assoc4<T>(a: seq<T>, b: seq<T>, c: seq<T>, d: seq<T>)
    ensures a + b + c + d == a + (b + c + d)
  {
  }

  /** A piece without '/' splits into itself. */
  lemma {:induction false} SplitPlain(a: string)
    requires '/' !in a
    ensures Split(a) == [a]
    decreases |a|
  {
    if |a| > 0 {
      assert '/' !in a[1..];
      SplitPlain(a[1..]);
      assert [a[0]] + a[1..] == a;
    }
  }

  /** A leading piece without '/' followed by a slash is split off first. */
  lemma {:induction false} SplitLeading(a: string, t: string)
    requires '/' !in a
    ensures Split(a + "/" + t) == [a] + Split(t)
    decreases |a|
  {
    if |a| == 0 {
      assert a + "/" + t == "/" + t;
      assert ("/" + t)[1..] == t;
    } else {
      assert '/' !in a[1..];
      SplitLeading(a[1..], t);
      assert (a + "/" + t)[1..] == a[1..] + "/" + t;
      assert [a[0]] + a[1..] == a;
    }
  }

  /** Splitting the join of one or more pieces without '/' gives the pieces back. */
  lemma {:induction false} SplitJoin(pieces: seq<string>)
    requires |pieces| >= 1
    requires forall i :: 0 <= i < |pieces| ==> '/' !in pieces[i]
    ensures Split(JoinSlash(pieces)) == pieces
    decreases |pieces|
  {
    if |pieces| == 1 {
      SplitPlain(pieces[0]);
    } else {
      SplitLeading(pieces[0], JoinSlash(pieces[1..]));
      SplitJoin(pieces[1..]);
      assert [pieces[0]] + pieces[1..] == pieces;
    }
  }

  /** SplitJoin for any list: '/'-free pieces, at least one, are what their join splits into. */
  lemma SplitJoinPlain(pieces: seq<string>)
    ensures (forall i :: 0 <= i < |pieces| ==> '/' !in pieces[i]) && |pieces| > 0 ==>
      Split(JoinSlash(pieces)) == pieces
  {
    if (forall i :: 0 <= i < |pieces| ==> '/' !in pieces[i]) && |pieces| > 0 {
      SplitJoin(pieces);
    }
  }

  /** Array.prototype.filter(s => s.length > 0): the non-empty pieces, in order. */
  function NonEmpty(pieces: seq<string>): (kept: seq<string>)
    ensures |kept| <= |pieces|
    ensures forall i :: 0 <= i < |kept| ==> |kept[i]| > 0 && kept[i] in pieces
    ensures (forall i :: 0 <= i < |pieces| ==> |pieces[i]| > 0) ==> kept == pieces
    decreases |pieces|
  {
    if |pieces| == 0 then []
    else
      var rest := NonEmpty(pieces[1..]);
      if |pieces[0]| > 0 then
        assert [pieces[0]] + pieces[1..] == pieces;
        [pieces[0]] + rest
      else rest
  }

  /** Filtering distributes over concatenation, so the kept pieces stay in order. */
  lemma {:induction false} NonEmptyAppend(a: seq<string>, b: seq<string>)
    ensures NonEmpty(a + b) == NonEmpty(a) + NonEmpty(b)
    decreases |a|
  {
    if |a| == 0 {
      assert a + b == b;
    } else {
      assert (a + b)[0] == a[0];
      assert (a + b)[1..] == a[1..] + b;
      NonEmptyAppend(a[1..], b);
    }
  }

  /** A single piece is kept exactly when it is non-empty. */
  lemma NonEmptyOne(x: string)
    ensures NonEmpty([x]) == if |x| > 0 then [x] else []
  {
  }

  /** Splitting at a '/' splits the two sides separately. */
  lemma {:induction false} SplitSlash(a: string, b: string)
    ensures Split(a + "/" + b) == Split(a) + Split(b)
    decreases |a|
  {
    var s := a + "/" + b;
    if |a| == 0 {
      assert s == "/" + b;
      assert s[1..] == b;
    } else {
      var t := a[1..] + "/" + b;
      assert s[0] == a[0] && s[1..] == t;
      SplitSlash(a[1..], b);
      var ra, rb := Split(a[1..]), Split(b);
      assert Split(t) == ra + rb;
      if a[0] == '/' {
        assert Split(s) == [""] + (ra + rb);
        assert Split(a) == [""] + ra;
        Assoc3([""], ra, rb);
      } else {
        var first := [a[0]] + ra[0];
        assert Split(s) == [[a[0]] + (ra + rb)[0]] + (ra + rb)[1..];
        assert (ra + rb)[0] == ra[0];
        assert (ra + rb)[1..] == ra[1..] + rb;
        assert Split(a) == [first] + ra[1..];
        Assoc3([first], ra[1..], rb);
      }
    }
  }

  /** The segments a string contributes to a path. */
  function Segments(s: string): (segs: seq<string>)
    ensures forall i :: 0 <= i < |segs| ==> WellFormed(segs[i])
  {
    var pieces := Split(s);
    var kept := NonEmpty(pieces);
    assert forall i :: 0 <= i < |kept| ==> exists j :: 0 <= j < |pieces| && kept[i] == pieces[j];
    kept
  }

  /** A string part with a '/' in it contributes the segments of both sides, in order. */
  lemma SegmentsSlash(a: string, b: string)
    ensures Segments(a + "/" + b) == Segments(a) + Segments(b)
  {
    SplitSlash(a, b);
    NonEmptyAppend(Split(a), Split(b));
  }

  /** A segment that prints and reads back as itself: non-empty, no '/'. */
  predicate WellFormed(segment: string) {
    |segment| > 0 && '/' !in segment
  }

  // ---------------------------------------------------------------- Path

  /**
   * Path.from(...parts): the segments of each part in argument order, a
   * Path's verbatim and a string's split on '/' without empty pieces; any
   * other part throws.
   */
  function From(parts: seq<Part>): (r: Result<Path>)
    ensures r.Err? <==> exists i :: 0 <= i < |parts| && parts[i].OtherPart?
    ensures r.Err? ==> r.error == InvalidPathPart
    decreases |parts|
  {
    if |parts| == 0 then Ok(Path([]))
    else if parts[0].OtherPart? then Err(InvalidPathPart)
    else
      var head := Contribution(parts[0]);
      match From(parts[1..])
      case Err(e) =>
        assert parts[1..][0] == parts[1];
        Err(e)
      case Ok(rest) => Ok(Path(head + rest.segments))
  }

  /** A single part: a Path gives itself, a string its non-empty pieces, anything else throws. */
  lemma FromOne(part: Part)
    ensures part.OtherPart? ==> From([part]) == Err(InvalidPathPart)
    ensures part.PathPart? ==> From([part]) == Ok(part.path)
    ensures part.StringPart? ==> From([part]) == Ok(Path(Segments(part.text)))
  {
    assert [part][1..] == [];
    if !part.OtherPart? {
      assert Contribution(part) + [] == Contribution(part);
    }
  }

  /** The segments one valid part contributes: a Path's verbatim, a string's non-empty pieces. */
  function Contribution(part: Part): seq<string>
    requires !part.OtherPart?
  {
    if part.PathPart? then part.path.segments else Segments(part.text)
  }

  /** Path.from over concatenated arguments concatenates the segments. */
  lemma {:induction false} FromConcat(a: seq<Part>, b: seq<Part>)
    ensures From(a + b).Ok? <==> From(a).Ok? && From(b).Ok?
    ensures From(a + b).Ok? ==> From(a + b).value.segments == From(a).value.segments + From(b).value.segments
    decreases |a|
  {
    if |a| == 0 {
      assert a + b == b;
    } else {
      var ab := a + b;
      assert ab[0] == a[0] && ab[1..] == a[1..] + b;
      FromConcat(a[1..], b);
      if !a[0].OtherPart? && From(ab).Ok? {
        Assoc3(Contribution(a[0]), From(a[1..]).value.segments, From(b).value.segments);
      }
    }
  }

  /** path.join(...parts): Path.from with the receiver as the first part. */
  function Join(p: Path, parts: seq<Part>): (r: Result<Path>)
    ensures r.Ok? <==> forall i :: 0 <= i < |parts| ==> !parts[i].OtherPart?
    ensures r.Ok? <==> From(parts).Ok?
    ensures r.Err? ==> r.error == InvalidPathPart
    ensures r.Ok? ==> r.value.segments == p.segments + From(parts).value.segments
  {
    FromConcat([PathPart(p)], parts);
    From([PathPart(p)] + parts)
  }

  /** Joining twice is joining once with both argument lists. */
  lemma JoinTwice(p: Path, a: seq<Part>, b: seq<Part>)
    requires Join(p, a).Ok?
    ensures Join(Join(p, a).value, b) == Join(p, a + b)
  {
    FromConcat(a, b);
    var q := Join(p, a).value;
    var once, twice := Join(p, a + b), Join(q, b);
    if once.Ok? {
      Assoc3(p.segments, From(a).value.segments, From(b).value.segments);
    }
    SameResult(twice, once);
  }

  /** Two outcomes of Path.from agree when they fail together and otherwise have the same segments. */
  lemma SameResult(x: Result<Path>, y: Result<Path>)
    requires x.Ok? <==> y.Ok?
    requires x.Err? ==> x.error == InvalidPathPart && y.error == InvalidPathPart
    requires x.Ok? ==> x.value.segments == y.value.segments
    ensures x == y
  {
  }

  lemma Assoc3<T>(a: seq<T>, b: seq<T>, c: seq<T>)
    ensures a + (b + c) == a + b + c
  {
  }

  /** path.basename: the last segment, or the empty string for the empty path. */
  function Basename(p: Path): (r: string)
    ensures |p.segments| == 0 ==> r == ""
    ensures |p.segments| > 0 ==> p.segments == p.segments[..|p.segments| - 1] + [r]
  {
    if |p.segments| == 0 then "" else p.segments[|p.segments| - 1]
  }

  /**
   * path.parent: null for at most one segment, otherwise the path without
   * its last segment.
   */
  function Parent(p: Path): (r: Option<Path>)
    ensures r.None? <==> |p.segments| <= 1
    ensures r.Some? ==> r.value.segments + [Basename(p)] == p.segments
  {
    var n := |p.segments|;
    if n <= 1 then None
    else
      assert p.segments[..n - 1] + [p.segments[n - 1]] == p.segments;
      Some(Path(p.segments[..n - 1]))
  }

  /**
   * path.withExtension(ext): a new path whose last segment gains "." and
   * ext.  On the empty path the source writes "undefined." + ext to the
   * array property "-1", which is no element: the segment list stays empty,
   * and that is all the model keeps.  Only basename reads the property
   * back; a Path here has no such slot.
   */
  function WithExtension(p: Path, ext: string): (r: Path)
    ensures |r.segments| == |p.segments|
    ensures |p.segments| == 0 ==> r == p
    ensures |p.segments| > 0 ==> Parent(r) == Parent(p) && Basename(r) == Basename(p) + "." + ext
  {
    var n := |p.segments|;
    if n == 0 then p
    else
      var r := Path(p.segments[..n - 1] + [p.segments[n - 1] + "." + ext]);
      assert r.segments[..n - 1] == p.segments[..n - 1];
      r
  }

  /** path.toString(). */
  function ToString(p: Path): (r: string)
    ensures |p.segments| == 0 ==> r == ""
    ensures (forall i :: 0 <= i < |p.segments| ==> '/' !in p.segments[i]) && |p.segments| > 0 ==>
      Split(r) == p.segments
  {
    SplitJoinPlain(p.segments);
    JoinSlash(p.segments)
  }

  /** Path.from(p.toString()) is p when every segment is non-empty and free of '/'. */
  lemma FromToString(p: Path)
    requires forall i :: 0 <= i < |p.segments| ==> WellFormed(p.segments[i])
    ensures From([StringPart(ToString(p))]) == Ok(p)
  {
    FromOne(StringPart(ToString(p)));
    if |p.segments| > 0 {
      SplitJoin(p.segments);
    }
  }

  // ---------------------------------------------------------------- relativeTo

  /** The length of the longest common prefix of a and b. */
  function CommonPrefixLength(a: seq<string>, b: seq<string>): (k: nat)
    ensures k <= |a| && k <= |b|
    ensures a[..k] == b[..k]
    ensures k < |a| && k < |b| ==> a[k] != b[k]
    decreases |a|
  {
    if |a| == 0 || |b| == 0 || a[0] != b[0] then 0
    else
      var k := CommonPrefixLength(a[1..], b[1..]);
      assert a[..k + 1] == [a[0]] + a[1..][..k];
      assert b[..k + 1] == [b[0]] + b[1..][..k];
      k + 1
  }

  /** Array(n).fill(s). */
  function Repeat(s: string, n: nat): (r: seq<string>)
    ensures |r| == n && forall i :: 0 <= i < n ==> r[i] == s
  {
    if n == 0 then [] else [s] + Repeat(s, n - 1)
  }

  /** The directory a relative link starts from: the parent's segments, or none. */
  function Directory(p: Path): seq<string> {
    match Parent(p)
    case Some(q) => q.segments
    case None => []
  }

  /** The segments of p.relativeTo(target): one ".." per unshared directory level, then the rest of target. */
  function RelativeParts(p: Path, target: Path): (r: seq<string>)
    ensures |r| == 0 <==> Directory(p) == target.segments
    ensures forall i :: 0 <= i < |r| ==> r[i] == ".." || r[i] in target.segments
    ensures (forall i :: 0 <= i < |target.segments| ==> '/' !in target.segments[i]) ==>
      forall i :: 0 <= i < |r| ==> '/' !in r[i]
  {
    var from := Directory(p);
    var k := CommonPrefixLength(from, target.segments);
    var ups := Repeat("..", |from| - k);
    var r := ups + target.segments[k..];
    assert forall i :: |ups| <= i < |r| ==> r[i] == target.segments[k + (i - |ups|)];
    assert |r| == 0 ==> from == from[..k] && target.segments == target.segments[..k];
    r
  }

  /** p.relativeTo(target): the relative parts joined with '/', or "." when there are none. */
  function RelativeTo(p: Path, target: Path): (r: string)
    ensures |RelativeParts(p, target)| == 0 ==> r == "."
    ensures (forall i :: 0 <= i < |target.segments| ==> '/' !in target.segments[i]) && |RelativeParts(p, target)| > 0 ==>
      Split(r) == RelativeParts(p, target)
  {
    var parts := RelativeParts(p, target);
    if |parts| == 0 then "."
    else
      SplitJoinPlain(parts);
      JoinSlash(parts)
  }

  /**
   * Where a relative path leads from a directory: ".." leaves the current
   * directory (staying at the top when there is none), any other segment
   * enters it.
   */
  function Resolve(dir: seq<string>, rel: seq<string>): seq<string>
    decreases |rel|
  {
    if |rel| == 0 then dir
    else if rel[0] == ".." then Resolve(if |dir| > 0 then dir[..|dir| - 1] else dir, rel[1..])
    else Resolve(dir + [rel[0]], rel[1..])
  }

  /** n leading ".." segments climb n levels. */
  lemma {:induction false} ResolveUp(dir: seq<string>, n: nat, rest: seq<string>)
    requires n <= |dir|
    ensures Resolve(dir, Repeat("..", n) + rest) == Resolve(dir[..|dir| - n], rest)
    decreases n
  {
    if n == 0 {
      assert Repeat("..", 0) + rest == rest;
      assert dir[..|dir|] == dir;
    } else {
      var rel := Repeat("..", n) + rest;
      assert rel[0] == "..";
      assert rel[1..] == Repeat("..", n - 1) + rest;
      ResolveUp(dir[..|dir| - 1], n - 1, rest);
      assert dir[..|dir| - 1][..|dir| - 1 - (n - 1)] == dir[..|dir| - n];
    }
  }

  /** Segments other than ".." are entered one after the other. */
  lemma {:induction false} ResolveDown(dir: seq<string>, rest: seq<string>)
    requires forall i :: 0 <= i < |rest| ==> rest[i] != ".."
    ensures Resolve(dir, rest) == dir + rest
    decreases |rest|
  {
    if |rest| > 0 {
      ResolveDown(dir + [rest[0]], rest[1..]);
      assert dir + [rest[0]] + rest[1..] == dir + rest;
    }
  }

  /**
   * Followed from the directory of p, the relative parts lead to target,
   * provided target's own segments never climb.
   */
  lemma RelativeResolves(p: Path, target: Path)
    requires forall i :: 0 <= i < |target.segments| ==> target.segments[i] != ".."
    ensures Resolve(Directory(p), RelativeParts(p, target)) == target.segments
  {
    var from, to := Directory(p), target.segments;
    var k := CommonPrefixLength(from, to);
    ResolveUp(from, |from| - k, to[k..]);
    assert from[..|from| - (|from| - k)] == to[..k];
    ResolveDown(to[..k], to[k..]);
    assert to[..k] + to[k..] == to;
  }

  /** A path relative to itself is its basename, or "." when it is empty. */
  lemma RelativeToSelf(p: Path)
    ensures RelativeTo(p, p) == if |p.segments| == 0 then "." else Basename(p)
  {
    var s := p.segments;
    var n := |s|;
    if n >= 2 {
      var from := s[..n - 1];
      var k := CommonPrefixLength(from, s);
      assert k == n - 1;
      assert RelativeParts(p, p) == [] + s[n - 1..];
      assert s[n - 1..] == [s[n - 1]];
    } else if n == 1 {
      assert RelativeParts(p, p) == [] + s[0..];
    }
  }

  /**
   * path.equals(other): other is a Path of the same length whose segments
   * agree one by one.  Reflexivity and symmetry follow from the contract.
   */
  method Equals(p: Path, other: Part) returns (eq: bool)
    ensures eq <==> other == PathPart(p)
  {
    if !other.PathPart? {
      return false;
    }
    var theirs := other.path.segments;
    if |p.segments| != |theirs| {
      return false;
    }
    var i := 0;
    while i < |theirs|
      invariant 0 <= i <= |theirs|
      invariant p.segments[..i] == theirs[..i]
    {
      if p.segments[i] != theirs[i] {
        return false;
      }
      assert p.segments[..i + 1] == p.segments[..i] + [p.segments[i]];
      assert theirs[..i + 1] == theirs[..i] + [theirs[i]];
      i := i + 1;
    }
    assert p.segments == p.segments[..i] && theirs == theirs[..i];
    return true;
  }
}

=== FILE: readers.dfy ===
/**
 * BinaryReader: a byte string and a cursor.  Every read is a pure function
 * from a reader to the value read and the reader after it; a read that
 * throws in the source is an Err here.
 */
module Readers {
  import opened Results
  import opened Bytes
  import VarInt

  /** The bytes being read (size is their length) and the cursor. */
  datatype Reader = Reader(data: seq<byte>, position: int)

  /** A value read and the reader positioned after it. */
  datatype Read<+T> = Read(value: T, next: Reader)

  /** skip never undoes its move: the moved reader and whether the move was legal. */
  datatype Moved = Moved(reader: Reader, outcome: Outcome)

  /** The constructor given a byte string, and setBuffer: the cursor starts at 0. */
  function Open(data: seq<byte>): (r: Reader)
    ensures r.data == data && r.position == 0
  {
    Reader(data, 0)
  }

  function Tell(r: Reader): int {
    r.position
  }

  // ---------------------------------------------------------------- cursor

  /** seek(p): any position in [0, size] is accepted, anything else throws. */
  function Seek(r: Reader, p: int): (res: Result<Reader>)
    ensures res.Err? <==> p < 0 || p > |r.data|
    ensures res.Err? ==> res.error == OutOfBounds
    ensures res.Ok? ==> res.value == Reader(r.data, p)
  {
    if p < 0 || p > |r.data| then Err(OutOfBounds) else Ok(Reader(r.data, p))
  }

  /**
   * skip(n): the cursor moves by n first; the move is then reported as
   * illegal when it ends past the size, but it is not undone.
   */
  function Skip(r: Reader, n: int): (m: Moved)
    ensures m.reader.data == r.data && m.reader.position == r.position + n
    ensures m.outcome.Fail? <==> r.position + n > |r.data|
    ensures m.outcome.Fail? ==> m.outcome.error == OutOfBounds
  {
    var moved := Reader(r.data, r.position + n);
    if moved.position > |r.data| then Moved(moved, Fail(OutOfBounds)) else Moved(moved, Pass)
  }

  /**
   * Within the data, skip(n) agrees with seek(position + n): it fails
   * exactly when seek does and otherwise leaves the cursor where seek puts it.
   */
  lemma SkipAgreesWithSeek(r: Reader, n: int)
    requires r.position + n >= 0
    ensures Skip(r, n).outcome.Fail? <==> Seek(r, r.position + n).Err?
    ensures Seek(r, r.position + n).Ok? ==> Skip(r, n) == Moved(Seek(r, r.position + n).value, Pass)
  {
  }

  /** JavaScript's a % n on integers: truncating, so the remainder takes the sign of a. */
  function JsRem(a: int, n: int): (m: int)
    requires n != 0
    ensures var d := if n < 0 then -n else n; -d < m < d && (a - m) % d == 0
    ensures a >= 0 ==> m >= 0
    ensures a < 0 ==> m <= 0
  {
    var d := if n < 0 then -n else n;
    RemainderMultiple(a, d);
    if a >= 0 then a % d else -((-a) % d)
  }

  lemma RemainderMultiple(a: int, n: int)
    requires n != 0
    ensures n > 0 && a >= 0 ==> (a - a % n) % n == 0
    ensures n > 0 && a < 0 ==> (a + (-a) % n) % n == 0
  {
    if n > 0 {
      if a >= 0 {
        DivModUnique(a - a % n, n, a / n, 0);
      } else {
        DivModUnique(a + (-a) % n, n, -((-a) / n), 0);
      }
    }
  }

  /** One more step of n keeps a multiple of n a multiple of n. */
  lemma AlignStep(x: int, n: int)
    requires n != 0
    ensures n > 0 && x % n == 0 ==> (x + n) % n == 0
  {
    if n > 0 && x % n == 0 {
      DivModUnique(x + n, n, x / n + 1, 0);
    }
  }

  /**
   * align(n): when the JavaScript remainder of the position by n is not 0,
   * the position moves by n minus that remainder.  n = 0 gives a NaN
   * position in the source and is excluded.
   */
  function Align(r: Reader, n: int): (res: Reader)
    requires n != 0
    ensures res.data == r.data
    ensures n > 0 ==> res.position % n == 0
    ensures n > 0 && r.position >= 0 ==> r.position <= res.position < r.position + n
  {
    var offset := JsRem(r.position, n);
    if offset == 0 then r
    else
      AlignStep(r.position - offset, n);
      Reader(r.data, r.position + (n - offset))
  }

  /** For a positive alignment and a non-negative position, align reaches the least multiple at or above it. */
  lemma AlignIsLeastMultiple(r: Reader, n: int, m: int)
    requires n > 0 && r.position >= 0
    requires m >= r.position && m % n == 0
    ensures Align(r, n).position <= m
  {
    var a := Align(r, n).position;
    if m < a {
      var qa, qm := a / n, m / n;
      assert a == n * qa && m == n * qm;
      assert a - m == n * (qa - qm);
      MulAtLeast(n, qa - qm);
      assert false;
    }
  }

  // ---------------------------------------------------------------- fixed width

  /** The w bytes at p, when they all lie inside the data. */
  predicate Fits(data: seq<byte>, p: int, w: nat) {
    0 <= p && p + w <= |data|
  }

  /**
   * readU8/readU16/readU32 (w = 1, 2, 4): the little-endian unsigned value
   * of the w bytes at the cursor, which then moves by w.  A field that does
   * not lie inside the data is a failure.
   */
  function ReadUnsigned(r: Reader, w: nat): (res: Result<Read<nat>>)
    ensures res.Err? <==> !Fits(r.data, r.position, w)
    ensures res.Err? ==> res.error == OutOfBounds
    ensures res.Ok? ==>
      && res.value.value < Pow256(w)
      && EncodeFixed(res.value.value, w) == r.data[r.position..r.position + w]
      && res.value.next == Reader(r.data, r.position + w)
  {
    if !Fits(r.data, r.position, w) then Err(OutOfBounds)
    else
      var field := r.data[r.position..r.position + w];
      var v := FromLittleEndian(field);
      FieldLayout(field);
      Ok(Read(v, Reader(r.data, r.position + w)))
  }

  lemma FieldLayout(field: seq<byte>)
    ensures EncodeFixed(FromLittleEndian(field), |field|) == field
  {
    FromLittleEndianRoundTrip(field);
    ToUnsignedInRange(FromLittleEndian(field), |field|);
  }

  /**
   * readI8/readI16/readI32: the same field read as two's complement, so the
   * value lies in [-2^(8w-1), 2^(8w-1)).
   */
  function ReadSigned(r: Reader, w: nat): (res: Result<Read<int>>)
    requires w >= 1
    ensures res.Err? <==> !Fits(r.data, r.position, w)
    ensures res.Err? ==> res.error == OutOfBounds
    ensures res.Ok? ==>
      && -(Pow256(w) / 2) <= res.value.value < Pow256(w) / 2
      && EncodeFixed(res.value.value, w) == r.data[r.position..r.position + w]
      && res.value.next == Reader(r.data, r.position + w)
  {
    match ReadUnsigned(r, w)
    case Err(e) => Err(e)
    case Ok(u) =>
      var s := ToSigned(u.value, w);
      SignedLayout(u.value, w);
      Ok(Read(s, u.next))
  }

  /** A w-byte pattern and its two's-complement reading encode to the same bytes. */
  lemma SignedLayout(u: nat, w: nat)
    requires w >= 1 && u < Pow256(w)
    ensures -(Pow256(w) / 2) <= ToSigned(u, w) < Pow256(w) / 2
    ensures EncodeFixed(ToSigned(u, w), w) == EncodeFixed(u, w)
  {
    HalfRange(w);
    SameResidue(u, w);
  }

  lemma HalfRange(w: nat)
    requires w >= 1
    ensures Pow256(w) == 2 * (Pow256(w) / 2)
  {
    assert Pow256(w) == 256 * Pow256(w - 1);
  }

  lemma SameResidue(u: nat, w: nat)
    requires w >= 1 && u < Pow256(w)
    ensures ToUnsigned(ToSigned(u, w), w) == ToUnsigned(u, w)
  {
    var p := Pow256(w);
    ToUnsignedIsMod(u, w);
    ToUnsignedIsMod(ToSigned(u, w), w);
    DivModUnique(u, p, 0, u);
    if u >= p / 2 {
      DivModUnique(u - p, p, -1, u);
    }
  }

  /** readBool: a byte read, true unless it is 0. */
  function ReadBool(r: Reader): (res: Result<Read<bool>>)
    ensures res.Err? <==> !Fits(r.data, r.position, 1)
    ensures res.Ok? ==>
      && (res.value.value <==> r.data[r.position] != 0)
      && res.value.next == Reader(r.data, r.position + 1)
  {
    match ReadUnsigned(r, 1)
    case Err(e) => Err(e)
    case Ok(b) =>
      assert r.data[r.position..r.position + 1] == [r.data[r.position]];
      Ok(Read(b.value != 0, b.next))
  }

  // ---------------------------------------------------------------- byte runs

  /** How Uint8Array.prototype.subarray turns a relative index into one in [0, len]. */
  function RelativeIndex(i: int, len: nat): (k: nat)
    ensures k <= len
    ensures 0 <= i <= len ==> k == i
  {
    if i < 0 then (if len + i < 0 then 0 else len + i)
    else if i > len then len
    else i
  }

  /** data.subarray(b, e): negative indices count from the end, both are clamped, and e before b is empty. */
  function JsSubarray(data: seq<byte>, b: int, e: int): (r: seq<byte>)
    ensures 0 <= b <= e <= |data| ==> r == data[b..e]
    ensures |r| <= |data|
  {
    var lo := RelativeIndex(b, |data|);
    var hi := RelativeIndex(e, |data|);
    if lo < hi then data[lo..hi] else []
  }

  /**
   * readStringOfSize(n) at the byte level: the bytes subarray(pos, pos + n)
   * selects, after which the cursor moves by n whether or not they were all
   * there.  It never throws.
   */
  function ReadBytesOfSize(r: Reader, n: int): (res: Read<seq<byte>>)
    ensures res.next == Reader(r.data, r.position + n)
    ensures n >= 0 && Fits(r.data, r.position, n) ==> res.value == r.data[r.position..r.position + n]
    ensures r.position >= 0 && n >= 0 ==> |res.value| <= n
  {
    Read(JsSubarray(r.data, r.position, r.position + n), Reader(r.data, r.position + n))
  }

  /**
   * readStringU8/U16/U32 (and readString = readStringU32): an unsigned
   * w-byte length prefix, then that many bytes.
   */
  function ReadLengthPrefixed(r: Reader, w: nat): (res: Result<Read<seq<byte>>>)
    ensures res.Err? <==> !Fits(r.data, r.position, w)
    ensures res.Ok? ==>
      var n := FromLittleEndian(r.data[r.position..r.position + w]);
      && res.value.next == Reader(r.data, r.position + w + n)
      && (r.position + w + n <= |r.data| ==> res.value.value == r.data[r.position + w..r.position + w + n])
  {
    match ReadUnsigned(r, w)
    case Err(e) => Err(e)
    case Ok(len) => Ok(ReadBytesOfSize(len.next, len.value))
  }

  /**
   * The cursor readCString's scan stops at: the first index from c on that
   * is at or past the size or holds a 0.  An index below 0 reads as
   * undefined, which is not 0, so the scan walks over it.
   */
  function NulIndex(data: seq<byte>, c: int): (k: int)
    ensures c >= |data| ==> k == c
    ensures c < |data| ==> 0 <= k <= |data| && c <= k
    ensures c < |data| ==> forall j :: c <= j < k && j >= 0 ==> data[j] != 0
    ensures 0 <= k < |data| ==> data[k] == 0
    decreases |data| - c
  {
    if c < |data| && (c < 0 || data[c] != 0) then NulIndex(data, c + 1) else c
  }

  /**
   * readCString: the bytes from the cursor up to the first 0, after which the
   * cursor sits just past that 0.  Reaching the size without a 0 throws; a
   * cursor already past the size never meets the size and reads nothing.
   */
  function ReadCString(r: Reader): (res: Result<Read<seq<byte>>>)
    ensures res.Err? <==> NulIndex(r.data, r.position) == |r.data|
    ensures res.Err? ==> res.error == MalformedInput
    ensures res.Ok? ==> res.value.next == Reader(r.data, NulIndex(r.data, r.position) + 1)
  {
    var cursor := NulIndex(r.data, r.position);
    if cursor == |r.data| then Err(MalformedInput)
    else Ok(Read(JsSubarray(r.data, r.position, cursor), Reader(r.data, cursor + 1)))
  }

  /**
   * From a cursor inside [0, size], readCString fails exactly when no 0
   * follows it, and otherwise returns the bytes before the first 0, none of
   * which is 0, and moves past that 0.
   */
  lemma ReadCStringFirstNul(r: Reader)
    requires 0 <= r.position <= |r.data|
    ensures ReadCString(r).Err? <==> forall j :: r.position <= j < |r.data| ==> r.data[j] != 0
    ensures ReadCString(r).Ok? ==>
      var k := r.position + |ReadCString(r).value.value|;
      && k < |r.data| && r.data[k] == 0
      && ReadCString(r).value.value == r.data[r.position..k]
      && 0 !in ReadCString(r).value.value
      && ReadCString(r).value.next.position == k + 1
  {
    var k := NulIndex(r.data, r.position);
    if k < |r.data| {
      assert r.data[k] == 0;
    }
  }

  // ---------------------------------------------------------------- vectors

  /**
   * vs are the values of consecutive single signed w-byte reads from pos:
   * the first is the read at pos, the rest are those from pos + w.
   */
  predicate ComponentsAt(data: seq<byte>, pos: int, w: nat, vs: seq<int>)
    requires w >= 1
    decreases |vs|
  {
    |vs| == 0 ||
      (ReadSigned(Reader(data, pos), w) == Ok(Read(vs[0], Reader(data, pos + w)))
       && ComponentsAt(data, pos + w, w, vs[1..]))
  }

  /**
   * readVector2I16 … readVector4I32: k signed w-byte fields in x, y, z, w
   * order, read one after the other; any field outside the data fails.
   */
  function ReadSignedVector(r: Reader, w: nat, k: nat): (res: Result<Read<seq<int>>>)
    requires w >= 1
    ensures res.Err? <==> k > 0 && !Fits(r.data, r.position, Span(k, w))
    ensures res.Ok? ==>
      && |res.value.value| == k
      && res.value.next == Reader(r.data, r.position + Span(k, w))
    decreases k
  {
    if k == 0 then Ok(Read([], r))
    else
      match ReadSigned(r, w)
      case Err(e) => Err(e)
      case Ok(first) =>
        match ReadSignedVector(first.next, w, k - 1)
        case Err(e) => Err(e)
        case Ok(rest) => Ok(Read([first.value] + rest.value, rest.next))
  }

  /** Component i of a vector read is the single signed read at pos + i * w. */
  lemma {:induction false} VectorComponents(r: Reader, w: nat, k: nat)
    requires w >= 1
    ensures ReadSignedVector(r, w, k).Ok? ==> ComponentsAt(r.data, r.position, w, ReadSignedVector(r, w, k).value.value)
    decreases k
  {
    if k > 0 && ReadSignedVector(r, w, k).Ok? {
      VectorUnfold(r, w, k);
      var first := ReadSigned(r, w).value;
      var rest := ReadSignedVector(first.next, w, k - 1).value;
      VectorComponents(first.next, w, k - 1);
      assert ([first.value] + rest.value)[1..] == rest.value;
    }
  }

  /** Consecutive single reads giving vs make the vector read give vs, ending after the last field. */
  lemma {:induction false} VectorOfComponents(data: seq<byte>, pos: int, w: nat, vs: seq<int>)
    requires w >= 1 && ComponentsAt(data, pos, w, vs)
    ensures ReadSignedVector(Reader(data, pos), w, |vs|) == Ok(Read(vs, Reader(data, pos + Span(|vs|, w))))
    decreases |vs|
  {
    if |vs| > 0 {
      VectorOfComponents(data, pos + w, w, vs[1..]);
      assert [vs[0]] + vs[1..] == vs;
    }
  }

  lemma VectorUnfold(r: Reader, w: nat, k: nat)
    requires w >= 1 && k >= 1 && ReadSignedVector(r, w, k).Ok?
    ensures ReadSigned(r, w).Ok?
    ensures ReadSigned(r, w).value.next == Reader(r.data, r.position + w)
    ensures ReadSignedVector(ReadSigned(r, w).value.next, w, k - 1).Ok?
    ensures ReadSignedVector(r, w, k).value.value
         == [ReadSigned(r, w).value.value] + ReadSignedVector(ReadSigned(r, w).value.next, w, k - 1).value.value
  {
  }

  // ---------------------------------------------------------------- varint

  /**
   * readVarInt as the source writes it: each readU8 (undefined past the
   * end, which ends the loop) contributes (byte & 127) << shift.
   */
  method ReadVarInt(r: Reader) returns (value: int, next: Reader)
    ensures next.data == r.data
    ensures (value, next.position) == VarInt.DecodeAsWritten(r.data, r.position, 0, 0)
    ensures 0 <= r.position < |r.data| && r.data[r.position] < 128 ==>
      value == r.data[r.position] && next.position == r.position + 1
  {
    var acc := 0;
    var shift := 0;
    var p := r.position;
    while true
      invariant VarInt.DecodeAsWritten(r.data, p, shift, acc) == VarInt.DecodeAsWritten(r.data, r.position, 0, 0)
      decreases |r.data| - p
    {
      var b := if 0 <= p < |r.data| then r.data[p] else 0;
      acc := acc + VarInt.Shl32(b % 128, shift);
      p := p + 1;
      if b < 128 {
        break;
      }
      shift := shift + 7;
    }
    value, next := acc, Reader(r.data, p);
    if 0 <= r.position < |r.data| && r.data[r.position] < 128 {
      ShlZero(r.data[r.position]);
    }
  }

  lemma ShlZero(x: byte)
    requires x < 128
    ensures VarInt.Shl32(x % 128, 0) == x
  {
  }

  /** The corrected varint read: unbounded value, and a failure when the data ends inside the number. */
  function ReadVarIntChecked(r: Reader): (res: Result<Read<nat>>)
    ensures res.Err? <==> VarInt.Decode(r.data, r.position).Err?
    ensures res.Ok? ==>
      && res.value.next.data == r.data
      && r.position < res.value.next.position <= |r.data|
      && r.data[res.value.next.position - 1] < 128
  {
    match VarInt.Decode(r.data, r.position)
    case Err(e) => Err(e)
    case Ok((v, p)) => Ok(Read(v, Reader(r.data, p)))
  }
}

=== FILE: results.dfy ===
/** Failure-carrying values shared by the codec and the path modules. */
module Results {

  /** The ways an operation of the codec or of the path algebra can throw. */
  datatype Error =
    | OutOfBounds      // a seek, skip or read outside [0, size], or a RangeError for a bad store length
    | MalformedInput   // odd hex digit count, C string without terminator
    | NoStore          // an operation that touches a byte store that was never allocated
    | InvalidPathPart  // Path.from given something that is neither a Path nor a string

  datatype Result<+T> = Ok(value: T) | Err(error: Error)

  /** An operation that may throw but returns nothing of interest. */
  datatype Outcome = Pass | Fail(error: Error)

  datatype Option<+T> = None | Some(value: T)
}

=== FILE: roundtrips.dfy ===
/**
 * Reading back what the writer wrote.  Each writer's contract states the
 * bytes it appends after the container's meaningful bytes, so those bytes
 * occur (At) at the writer's old size in the container's contents and in
 * any longer byte string that begins with them (WrittenAt).  The lemmas here
 * read them back from wherever they occur.
 */
module RoundTrips {
  import opened Results
  import opened Bytes
  import opened Containers
  import opened Readers
  import opened Writers
  import VarInt

  /** After a write that appends e, e occurs at the old size, whatever follows the contents. */
  lemma WrittenAt(c: Container, r: Container, e: seq<byte>, rest: seq<byte>)
    requires Valid(c) && Valid(r) && Contents(r) == Contents(c) + e
    ensures At(Contents(r) + rest, c.size, e)
  {
    AtMiddle(Contents(c), e, rest);
  }

  /** readU8/U16/U32 inside the data: the little-endian value of the field. */
  lemma UnsignedValue(data: seq<byte>, pos: int, w: nat)
    requires Fits(data, pos, w)
    ensures ReadUnsigned(Reader(data, pos), w) == Ok(Read(FromLittleEndian(data[pos..pos + w]), Reader(data, pos + w)))
  {
  }

  /**
   * writeU8/U16/U32 then readU8/U16/U32: v modulo 2^(8w) (ToUnsigned, see
   * ToUnsignedIsMod), and the cursor ends right after the field.
   */
  lemma FixedRoundTrip(data: seq<byte>, pos: int, v: int, w: nat)
    requires At(data, pos, EncodeFixed(v, w))
    ensures ReadUnsigned(Reader(data, pos), w) == Ok(Read(ToUnsigned(v, w), Reader(data, pos + w)))
  {
    UnsignedValue(data, pos, w);
    EncodeFixedValue(v, w);
    ToUnsignedIsMod(v, w);
  }

  /** writeI8/I16/I32 then readI8/I16/I32 of a value in the signed range gives the value back. */
  lemma SignedFixedRoundTrip(data: seq<byte>, pos: int, v: int, w: nat)
    requires w >= 1 && -(Pow256(w) / 2) <= v < Pow256(w) / 2
    requires At(data, pos, EncodeFixed(v, w))
    ensures ReadSigned(Reader(data, pos), w) == Ok(Read(v, Reader(data, pos + w)))
  {
    FixedRoundTrip(data, pos, v, w);
    SignedOfUnsigned(v, w);
  }

  /** writeBool then readBool. */
  lemma BoolRoundTrip(data: seq<byte>, pos: int, b: bool)
    requires At(data, pos, [if b then 1 else 0])
    ensures ReadBool(Reader(data, pos)) == Ok(Read(b, Reader(data, pos + 1)))
  {
    AtSplit(data, pos, [if b then 1 else 0]);
  }

  /** A length prefix holding |enc| followed by the bytes of enc reads back as enc. */
  lemma PrefixedRead(data: seq<byte>, pos: int, w: nat, enc: seq<byte>)
    requires Fits(data, pos, w) && pos + w + |enc| <= |data|
    requires FromLittleEndian(data[pos..pos + w]) == |enc|
    requires data[pos + w..pos + w + |enc|] == enc
    ensures ReadLengthPrefixed(Reader(data, pos), w) == Ok(Read(enc, Reader(data, pos + w + |enc|)))
  {
    UnsignedValue(data, pos, w);
  }

  /** writeStringU8/U16/U32 then readStringU8/U16/U32: the bytes come back when their count fits the prefix. */
  lemma LengthPrefixedRoundTrip(data: seq<byte>, pos: int, enc: seq<byte>, w: nat)
    requires |enc| < Pow256(w)
    requires At(data, pos, EncodeFixed(|enc|, w) + enc)
    ensures ReadLengthPrefixed(Reader(data, pos), w) == Ok(Read(enc, Reader(data, pos + w + |enc|)))
  {
    AtConcat(data, pos, EncodeFixed(|enc|, w), enc);
    UnsignedRoundTrip(|enc|, w);
    PrefixedRead(data, pos, w, enc);
  }

  /**
   * With a one-byte prefix, 256 bytes are written behind a prefix of 0, so
   * the reader returns nothing and stops right after the prefix.
   */
  lemma LengthPrefixTruncates(data: seq<byte>, pos: int, enc: seq<byte>)
    requires |enc| == 256
    requires At(data, pos, EncodeFixed(|enc|, 1) + enc)
    ensures ReadLengthPrefixed(Reader(data, pos), 1) == Ok(Read([], Reader(data, pos + 1)))
  {
    AtConcat(data, pos, EncodeFixed(|enc|, 1), enc);
    assert EncodeFixed(256, 1) == [0];
    PrefixedRead(data, pos, 1, []);
  }

  /** writeCString then readCString: bytes without a 0 come back, and the cursor ends after the terminator. */
  lemma CStringRoundTrip(data: seq<byte>, pos: int, enc: seq<byte>)
    requires 0 !in enc
    requires At(data, pos, enc + [0])
    ensures ReadCString(Reader(data, pos)) == Ok(Read(enc, Reader(data, pos + |enc| + 1)))
  {
    var e := pos + |enc|;
    AtConcat(data, pos, enc, [0]);
    AtSplit(data, e, [0]);
    var r := Reader(data, pos);
    ReadCStringFirstNul(r);
    var k := pos + |ReadCString(r).value.value|;
    assert k == e;
  }

  /** Every component lies in the range of a signed w-byte field. */
  predicate AllFitSigned(vs: seq<int>, w: nat) {
    forall i :: 0 <= i < |vs| ==> -(Pow256(w) / 2) <= vs[i] < Pow256(w) / 2
  }

  /** writeVector2I16 … writeVector4I32 then the matching read: the components come back in order. */
  lemma VectorRoundTrip(data: seq<byte>, pos: int, vs: seq<int>, w: nat)
    requires w >= 1 && AllFitSigned(vs, w)
    requires At(data, pos, Fields(vs, w))
    ensures ReadSignedVector(Reader(data, pos), w, |vs|) == Ok(Read(vs, Reader(data, pos + Span(|vs|, w))))
  {
    FieldsComponents(data, pos, vs, w);
    VectorOfComponents(data, pos, w, vs);
  }

  /** Each field of a vector write reads back, one after the other, as its component. */
  lemma {:induction false} FieldsComponents(data: seq<byte>, pos: int, vs: seq<int>, w: nat)
    requires w >= 1 && AllFitSigned(vs, w)
    requires At(data, pos, Fields(vs, w))
    ensures ComponentsAt(data, pos, w, vs)
    decreases |vs|
  {
    if |vs| > 0 {
      FirstComponent(data, pos, vs, w);
      FieldsComponents(data, pos + w, vs[1..], w);
    }
  }

  /** The first component reads back, and the remaining components stay in range and follow it. */
  lemma FirstComponent(data: seq<byte>, pos: int, vs: seq<int>, w: nat)
    requires w >= 1 && |vs| > 0 && AllFitSigned(vs, w)
    requires At(data, pos, Fields(vs, w))
    ensures ReadSigned(Reader(data, pos), w) == Ok(Read(vs[0], Reader(data, pos + w)))
    ensures AllFitSigned(vs[1..], w) && At(data, pos + w, Fields(vs[1..], w))
  {
    AtConcat(data, pos, EncodeFixed(vs[0], w), Fields(vs[1..], w));
    SignedFixedRoundTrip(data, pos, vs[0], w);
    assert AllFitSigned(vs[1..], w);
  }

  /**
   * writeVarInt then readVarInt, as the source writes both: below 2^31 the
   * value comes back and the cursor ends after the number; 2^31 itself is
   * written as two bytes that read back as 0.
   */
  method VarIntRoundTrip(c: Container, v: int, rest: seq<byte>) returns (value: int, next: Reader)
    requires Valid(c)
    ensures 0 <= v < 0x8000_0000 ==> value == v && next.position == c.size + |VarInt.EncodeAsWritten(v)|
    ensures v == 0x8000_0000 ==> value == 0 && next.position == c.size + 2
  {
    var w := WriteVarInt(c, v);
    var d := Contents(w) + rest;
    value, next := ReadVarInt(Reader(d, c.size));
    WrittenAt(c, w, VarInt.EncodeAsWritten(v), rest);
    if 0 <= v < 0x8000_0000 {
      VarInt.AsWrittenRoundTrip(v, d, c.size);
    } else if v == 0x8000_0000 {
      LostBit(d, c.size);
    }
  }

  /** Where writeVarInt(2^31) put its two bytes, readVarInt reads 0. */
  lemma LostBit(d: seq<byte>, pos: nat)
    requires At(d, pos, VarInt.EncodeAsWritten(0x8000_0000))
    ensures VarInt.DecodeAsWritten(d, pos, 0, 0) == (0, pos + 2)
  {
    var e := VarInt.EncodeAsWritten(0x8000_0000);
    VarInt.AsWrittenLosesBit31([0x80, 0x00]);
    AtSplit(d, pos, e);
    AtSplit(d, pos + 1, e[1..]);
    // 0x80, 0x00: one empty continuation group and a final group of 0
    VarInt.DecodeAsWrittenStep(d, pos, 0, 0);
    VarInt.FinalGroup(d, pos + 1, 7, VarInt.Shl32(0, 0));
    VarInt.ZeroShift(0);
    VarInt.ZeroShift(7);
  }

  /** The corrected write and read agree on every natural number. */
  lemma CheckedVarIntRoundTrip(data: seq<byte>, pos: int, v: nat)
    requires At(data, pos, VarInt.Encode(v))
    ensures ReadVarIntChecked(Reader(data, pos)) == Ok(Read(v, Reader(data, pos + |VarInt.Encode(v)|)))
  {
    VarInt.RoundTrip(v, data, pos);
  }

  /** Distinct multiples of n lie at least n apart. */
  lemma MultiplesApart(a: int, m: int, n: int)
    requires n > 0 && a % n == 0 && m % n == 0 && m < a
    ensures a - m >= n
  {
    var qa, qm := a / n, m / n;
    Distribute(n, qa, qm);
    var k := qa - qm;
    assert a - m == n * k;
    if k < 1 {
      NonPositiveProduct(n, k);
    } else {
      MulAtLeast(n, k);
    }
  }

  lemma Distribute(n: int, x: int, y: int)
    ensures n * x - n * y == n * (x - y)
  {
  }

  lemma NonPositiveProduct(n: int, k: int)
    requires n > 0 && k <= 0
    ensures n * k <= 0
  {
  }

  /**
   * The reader's align(n) from position s lands exactly where the writer's
   * padToAlignment(n) from size s stops, whatever the bytes.
   */
  lemma AlignSkipsPadding(data: seq<byte>, s: nat, n: int)
    requires n > 0
    ensures Align(Reader(data, s), n).position == s + PadCount(s, n)
  {
    var a, p := Align(Reader(data, s), n).position, s + PadCount(s, n);
    if a < p {
      MultiplesApart(p, a, n);
    } else if p < a {
      MultiplesApart(a, p, n);
    }
  }
}

=== FILE: text.dfy ===
/**
 * JavaScript strings as UTF-16 code units.  A Dafny char is a Unicode
 * scalar value; JavaScript's length, charCodeAt and regular expressions
 * without the u flag see the UTF-16 code units instead, so a character
 * above U+FFFF counts as two units (a surrogate pair).
 */
module Text {

  /** The one or two UTF-16 code units of a character. */
  function CodeUnits(c: char): (units: seq<int>)
    ensures |units| == 1 <==> (c as int) < 0x1_0000
    ensures |units| == 1 ==> units[0] == c as int
    ensures |units| == 2 ==>
      && 0xD800 <= units[0] < 0xDC00 && 0xDC00 <= units[1] < 0xE000
      && c as int == 0x1_0000 + (units[0] - 0xD800) * 0x400 + (units[1] - 0xDC00)
    ensures |units| == 1 || |units| == 2
  {
    var v := c as int;
    if v < 0x1_0000 then [v]
    else
      var low := v - 0x1_0000;
      [0xD800 + low / 0x400, 0xDC00 + low % 0x400]
  }

  /** The UTF-16 code units of a string, each below 0x10000. */
  function Utf16(s: string): (units: seq<int>)
    ensures |units| >= |s|
    ensures forall i :: 0 <= i < |units| ==> 0 <= units[i] < 0x1_0000
    decreases |s|
  {
    if |s| == 0 then [] else CodeUnits(s[0]) + Utf16(s[1..])
  }

  /** The code units of a concatenation are the concatenated code units. */
  lemma {:induction false} Utf16Append(a: string, b: string)
    ensures Utf16(a + b) == Utf16(a) + Utf16(b)
    decreases |a|
  {
    if |a| == 0 {
      assert a + b == b;
    } else {
      assert (a + b)[0] == a[0];
      assert (a + b)[1..] == a[1..] + b;
      Utf16Append(a[1..], b);
    }
  }

  /** A string of characters below U+10000 has one code unit per character, equal to it. */
  lemma {:induction false} Utf16OfBasic(s: string)
    requires forall i :: 0 <= i < |s| ==> (s[i] as int) < 0x1_0000
    ensures |Utf16(s)| == |s|
    ensures forall i :: 0 <= i < |s| ==> Utf16(s)[i] == s[i] as int
    decreases |s|
  {
    if |s| > 0 {
      Utf16OfBasic(s[1..]);
      assert Utf16(s) == [s[0] as int] + Utf16(s[1..]);
    }
  }

  /** U+1F600 is the surrogate pair D83D DE00. */
  lemma SurrogatePairExample()
    ensures Utf16("\U{1F600}") == [0xD83D, 0xDE00]
  {
  }
}

=== FILE: varint.dfy ===
/**
 * The base-128 variable-length integer of writeVarInt / readVarInt: seven
 * data bits per byte, least-significant group first, continuation flag in
 * the high bit (the unsigned LEB128 shape of section 7.6 of DWARF v4).
 *
 * Two versions are modelled.  The "as written" functions follow the
 * JavaScript arithmetic of the source: the writer shifts with the 32-bit
 * signed `>>` and the reader accumulates 32-bit `<<` results and treats a
 * byte read past the end (undefined) as a terminating zero.  The corrected
 * functions work on unbounded naturals and fail on a truncated input.
 */
module VarInt {
  import opened Results
  import opened Bytes

  // ---------------------------------------------------------------- as written

  /**
   * The bytes writeVarInt(v) stores: while v >= 128 emit (v & 127) | 128 and
   * set v to v >> 7; then store v into a Uint8Array slot (ToUint8).
   */
  function EncodeAsWritten(v: int): (r: seq<byte>)
    ensures |r| >= 1
    ensures forall i :: 0 <= i < |r| - 1 ==> r[i] >= 128
    decreases if v >= 128 then v else 0
  {
    if v >= 128 then [ToInt32(v) % 128 + 128] + EncodeAsWritten(ToInt32(v) / 128)
    else [v % 256]
  }

  /** x * 2^s, by doubling s times. */
  function Scale(x: int, s: nat): int {
    if s == 0 then x else 2 * Scale(x, s - 1)
  }

  /** JavaScript's x << s: the shift count is taken modulo 32 and the result is a 32-bit signed integer. */
  function Shl32(x: int, s: nat): (r: int)
    ensures -0x8000_0000 <= r < 0x8000_0000
    ensures (x * Pow2(s % 32) - r) % 0x1_0000_0000 == 0
  {
    ScaleIsProduct(x, s % 32);
    ToInt32(Scale(x, s % 32))
  }

  /** Doubling s times multiplies by 2^s. */
  lemma {:induction false} ScaleIsProduct(x: int, s: nat)
    ensures Scale(x, s) == x * Pow2(s)
  {
    if s > 0 {
      ScaleIsProduct(x, s - 1);
      assert x * Pow2(s) == 2 * (x * Pow2(s - 1));
    }
  }

  /**
   * readVarInt from `pos` with the given shift and accumulator.  A byte
   * outside the store is undefined in JavaScript; `undefined & 127` and
   * `undefined & 128` are both 0, so it adds nothing and ends the loop.
   * The result is the value and the final position.
   */
  function DecodeAsWritten(data: seq<byte>, pos: int, shift: nat, acc: int): (r: (int, int))
    ensures r.1 > pos
    decreases |data| - pos
  {
    var b := if 0 <= pos < |data| then data[pos] else 0;
    var acc' := acc + Shl32(b % 128, shift);
    if b < 128 then (acc', pos + 1)
    else DecodeAsWritten(data, pos + 1, shift + 7, acc')
  }

  // ---------------------------------------------------------------- corrected

  /** Every byte but the last carries the continuation flag; the last does not. */
  predicate Terminated(r: seq<byte>) {
    && |r| >= 1
    && (forall i :: 0 <= i < |r| - 1 ==> r[i] >= 128)
    && r[|r| - 1] < 128
  }

  lemma TerminatedCons(b: byte, rest: seq<byte>)
    requires b >= 128 && Terminated(rest)
    ensures Terminated([b] + rest)
  {
    var r := [b] + rest;
    forall i | 0 <= i < |r| - 1
      ensures r[i] >= 128
    {
      if i > 0 {
        assert r[i] == rest[i - 1];
      }
    }
  }

  /** Unsigned LEB128 of an unbounded natural. */
  function Encode(v: nat): (r: seq<byte>)
    ensures Terminated(r)
  {
    if v < 128 then [v]
    else
      var q := v / 128;
      assert q < v;
      TerminatedCons(v % 128 + 128, Encode(q));
      [v % 128 + 128] + Encode(q)
  }

  /**
   * Unsigned LEB128 decoding at `pos`: the value and the position after its
   * last byte, or OutOfBounds when the input ends before a byte below 128.
   */
  function Decode(data: seq<byte>, pos: int): (r: Result<(nat, int)>)
    ensures r.Err? ==> r.error == OutOfBounds
    ensures r.Ok? ==> 0 <= pos < r.value.1 <= |data| && data[r.value.1 - 1] < 128
    decreases |data| - pos
  {
    if pos < 0 || pos >= |data| then Err(OutOfBounds)
    else if data[pos] < 128 then Ok((data[pos], pos + 1))
    else match Decode(data, pos + 1)
      case Err(e) => Err(e)
      case Ok((v, p)) => Ok((data[pos] - 128 + 128 * v, p))
  }

  /**
   * Decoding fails exactly when no byte below 128 occurs from `pos` on, and
   * otherwise stops right after the first such byte.
   */
  lemma {:induction false} DecodeStopsAtFirstFinalByte(data: seq<byte>, pos: int)
    ensures Decode(data, pos).Err? <==> pos < 0 || forall j :: pos <= j < |data| ==> data[j] >= 128
    ensures Decode(data, pos).Ok? ==>
      forall j :: pos <= j < Decode(data, pos).value.1 - 1 ==> data[j] >= 128
    decreases |data| - pos
  {
    if 0 <= pos < |data| && data[pos] >= 128 {
      DecodeStopsAtFirstFinalByte(data, pos + 1);
    }
  }

  /** Decoding the encoding of v, wherever it sits in a byte string, gives v back and stops right after it. */
  lemma {:induction false} RoundTrip(v: nat, data: seq<byte>, pos: int)
    requires At(data, pos, Encode(v))
    ensures Decode(data, pos) == Ok((v, pos + |Encode(v)|))
  {
    var e := Encode(v);
    AtSplit(data, pos, e);
    if v >= 128 {
      var q := v / 128;
      assert e[1..] == Encode(q);
      RoundTrip(q, data, pos + 1);
      var d := data[pos];
      assert d - 128 + 128 * q == v;
    }
  }

  // ---------------------------------------------------------------- agreement

  /** Below 2^31 the source's encoder is exactly LEB128. */
  lemma {:induction false} EncodeAgrees(v: int)
    requires 0 <= v < 0x8000_0000
    ensures EncodeAsWritten(v) == Encode(v)
    decreases v
  {
    if v >= 128 {
      assert ToInt32(v) == v;
      EncodeAgrees(v / 128);
    }
  }

  lemma {:induction false} ScaleOfPow2(s: nat)
    ensures Scale(1, s) == Pow2(s)
  {
    if s > 0 {
      ScaleOfPow2(s - 1);
    }
  }

  lemma Pow2At31()
    ensures Pow2(31) == 0x8000_0000
  {
    assert Pow2(8) == 0x100;
    assert Pow2(16) == 0x1_0000;
    assert Pow2(24) == 0x100_0000;
  }

  lemma {:induction false} ScaleAdd(a: int, b: int, s: nat)
    ensures Scale(a + b, s) == Scale(a, s) + Scale(b, s)
  {
    if s > 0 {
      ScaleAdd(a, b, s - 1);
    }
  }

  lemma {:induction false} ScaleCompose(x: int, a: nat, b: nat)
    ensures Scale(Scale(x, a), b) == Scale(x, a + b)
  {
    if b > 0 {
      ScaleCompose(x, a, b - 1);
    }
  }

  lemma {:induction false} ScaleMonotone(a: int, b: int, s: nat)
    requires a <= b
    ensures Scale(a, s) <= Scale(b, s)
  {
    if s > 0 {
      ScaleMonotone(a, b, s - 1);
    }
  }

  lemma {:induction false} ScaleGrowsWithShift(x: nat, a: nat, b: nat)
    requires a <= b
    ensures Scale(x, a) <= Scale(x, b)
    decreases b
  {
    if a < b {
      ScaleGrowsWithShift(x, a, b - 1);
      ScaleMonotone(0, x, b - 1);
      ZeroScale(b - 1);
    }
  }

  lemma {:induction false} ZeroScale(s: nat)
    ensures Scale(0, s) == 0
  {
    if s > 0 {
      ZeroScale(s - 1);
    }
  }

  lemma Scale7(q: int)
    ensures Scale(q, 7) == 128 * q
  {
    assert Scale(q, 1) == 2 * q;
    assert Scale(q, 2) == 4 * q;
    assert Scale(q, 3) == 8 * q;
    assert Scale(q, 4) == 16 * q;
    assert Scale(q, 5) == 32 * q;
    assert Scale(q, 6) == 64 * q;
  }

  /** A group that is not the only one fits below 2^31 only at a shift below 31. */
  lemma ShiftBelow31(u: nat, s: nat)
    requires u >= 1 && Scale(u, s) < 0x8000_0000
    ensures s < 31
  {
    if s >= 31 {
      ScaleMonotone(1, u, s);
      ScaleGrowsWithShift(1, 31, s);
      ScaleOfPow2(31);
      Pow2At31();
    }
  }

  /** One 7-bit group placed at `shift` without 32-bit wrap-around. */
  lemma GroupFits(g: nat, u: nat, shift: nat)
    requires g <= u && Scale(u, shift) < 0x8000_0000
    ensures Shl32(g, shift) == Scale(g, shift)
  {
    if g == 0 {
      ZeroScale(shift);
      ZeroScale(shift % 32);
    } else {
      ShiftBelow31(u, shift);
      assert shift % 32 == shift;
      ScaleMonotone(g, u, shift);
      ScaleMonotone(0, g, shift);
      ZeroScale(shift);
    }
  }

  /**
   * Wherever LEB128 decoding succeeds with a value u whose placement at bit
   * `shift` stays below 2^31, the source's decoder adds exactly u * 2^shift
   * and stops at the same position.
   */
  lemma {:induction false} DecodeAsWrittenAgrees(data: seq<byte>, pos: int, shift: nat, acc: int)
    requires Decode(data, pos).Ok?
    requires Scale(Decode(data, pos).value.0, shift) < 0x8000_0000
    ensures DecodeAsWritten(data, pos, shift, acc)
         == (acc + Scale(Decode(data, pos).value.0, shift), Decode(data, pos).value.1)
    decreases |data| - pos
  {
    var b := data[pos];
    if b < 128 {
      GroupFits(b, b, shift);
      FinalGroup(data, pos, shift, acc);
    } else {
      var v := Decode(data, pos + 1).value.0;
      var g := b - 128;
      SplitParts(g, v, shift);
      GroupFits(g, g + 128 * v, shift);
      assert b % 128 == g;
      DecodeAsWrittenStep(data, pos, shift, acc);
      DecodeAsWrittenAgrees(data, pos + 1, shift + 7, acc + Scale(g, shift));
    }
  }

  /** A group g below 128 followed by the value v: g at `shift` plus v at `shift + 7`. */
  lemma SplitParts(g: nat, v: nat, shift: nat)
    requires g < 128
    ensures Scale(g + 128 * v, shift) == Scale(g, shift) + Scale(v, shift + 7)
    ensures Scale(v, shift + 7) <= Scale(g + 128 * v, shift)
  {
    ScaleAdd(g, 128 * v, shift);
    Scale7(v);
    ScaleCompose(v, 7, shift);
    ScaleMonotone(0, g, shift);
    ZeroScale(shift);
  }

  /** One iteration of the source's loop on a continuation byte. */
  lemma DecodeAsWrittenStep(data: seq<byte>, pos: int, shift: nat, acc: int)
    requires 0 <= pos < |data| && data[pos] >= 128
    ensures DecodeAsWritten(data, pos, shift, acc)
         == DecodeAsWritten(data, pos + 1, shift + 7, acc + Shl32(data[pos] % 128, shift))
  {
  }

  /** The loop's last iteration, on a byte below 128. */
  lemma FinalGroup(data: seq<byte>, pos: int, shift: nat, acc: int)
    requires 0 <= pos < |data| && data[pos] < 128
    ensures DecodeAsWritten(data, pos, shift, acc) == (acc + Shl32(data[pos], shift), pos + 1)
  {
    assert data[pos] % 128 == data[pos];
  }

  /** Below 2^31 the source's decoder reads back exactly what the source's encoder wrote. */
  lemma AsWrittenRoundTrip(v: int, data: seq<byte>, pos: int)
    requires 0 <= v < 0x8000_0000
    requires At(data, pos, EncodeAsWritten(v))
    ensures DecodeAsWritten(data, pos, 0, 0) == (v, pos + |EncodeAsWritten(v)|)
  {
    EncodeAgrees(v);
    RoundTrip(v, data, pos);
    DecodeAsWrittenAgrees(data, pos, 0, 0);
  }

  /** writeVarInt(300) is [0xAC, 0x02]. */
  lemma Encode300()
    ensures EncodeAsWritten(300) == [0xAC, 0x02]
  {
    EncodeAgrees(300);
  }

  // ---------------------------------------------------------------- counterexamples

  /** writeVarInt(2^31) stores [0x80, 0x00], which readVarInt reads back as 0. */
  lemma AsWrittenLosesBit31(d: seq<byte>)
    requires d == [0x80, 0x00]
    ensures EncodeAsWritten(0x8000_0000) == d
    ensures DecodeAsWritten(d, 0, 0, 0) == (0, 2)
  {
    ToInt32At2p31();
    assert EncodeAsWritten(-0x100_0000) == [0];
    EmptyGroup(d, 0, 0);
    ZeroShift(7);
  }

  /**
   * The bytes [0x80, 0x80, 0x80, 0x80, 0x08], which LEB128 reads as 2^31,
   * read back as -2^31 in the source: the 32-bit `<<` wraps.
   */
  lemma AsWrittenReadWraps(d: seq<byte>)
    requires d == [0x80, 0x80, 0x80, 0x80, 0x08]
    ensures DecodeAsWritten(d, 0, 0, 0) == (-0x8000_0000, 5)
    ensures Decode(d, 0) == Ok((0x8000_0000, 5))
  {
    ZeroGroups(d);
    FinalGroup(d, 4, 28, 0);
    Wrap28();
    DecodeBit31(d);
  }

  lemma DecodeBit31(d: seq<byte>)
    requires d == [0x80, 0x80, 0x80, 0x80, 0x08]
    ensures Decode(d, 0) == Ok((0x8000_0000, 5))
  {
    assert Decode(d, 4) == Ok((8, 5));
    assert Decode(d, 3) == Ok((0x400, 5));
    assert Decode(d, 2) == Ok((0x2_0000, 5));
    assert Decode(d, 1) == Ok((0x100_0000, 5));
  }

  lemma ToInt32At2p31()
    ensures ToInt32(0x8000_0000) == -0x8000_0000
  {
  }

  lemma Wrap28()
    ensures Shl32(8, 28) == -0x8000_0000
  {
    assert Scale(1, 3) == 8;
    ScaleCompose(1, 3, 28);
    ScaleOfPow2(31);
    Pow2At31();
    assert 28 % 32 == 28;
    ToInt32At2p31();
  }

  lemma ZeroShift(s: nat)
    ensures Shl32(0, s) == 0
  {
    ZeroScale(s % 32);
  }

  /** A continuation byte 0x80 adds nothing and moves the shift on by seven. */
  lemma EmptyGroup(d: seq<byte>, pos: int, shift: nat)
    requires 0 <= pos < |d| && d[pos] == 0x80
    ensures DecodeAsWritten(d, pos, shift, 0) == DecodeAsWritten(d, pos + 1, shift + 7, 0)
  {
    ZeroShift(shift);
    DecodeAsWrittenStep(d, pos, shift, 0);
  }

  /** The four continuation bytes 0x80 contribute nothing and leave the shift at 28. */
  lemma ZeroGroups(d: seq<byte>)
    requires |d| == 5 && d[0] == 0x80 && d[1] == 0x80 && d[2] == 0x80 && d[3] == 0x80
    ensures DecodeAsWritten(d, 0, 0, 0) == DecodeAsWritten(d, 4, 28, 0)
  {
    EmptyRun(d, 0, 4, 0);
  }

  /** A run of continuation bytes 0x80 from pos to k contributes nothing. */
  lemma {:induction false} EmptyRun(d: seq<byte>, pos: nat, k: nat, shift: nat)
    requires pos <= k <= |d|
    requires forall j :: pos <= j < k ==> d[j] == 0x80
    ensures DecodeAsWritten(d, pos, shift, 0) == DecodeAsWritten(d, k, shift + 7 * (k - pos), 0)
    decreases k - pos
  {
    if pos < k {
      EmptyGroup(d, pos, shift);
      EmptyRun(d, pos + 1, k, shift + 7);
    }
  }

  /** A truncated varint is not an error in the source: [0x80] reads as 0 and leaves the cursor past the end. */
  lemma AsWrittenReadsPastEnd(d: seq<byte>)
    requires d == [0x80]
    ensures DecodeAsWritten(d, 0, 0, 0) == (0, 2)
    ensures Decode(d, 0) == Err(OutOfBounds)
  {
    EmptyGroup(d, 0, 0);
    ZeroShift(7);
  }
}

=== FILE: writers.dfy ===
/**
 * BinaryWriter: an append-only container.  Every write first grows the
 * container through _reserveGrow and then stores its bytes at the old size.
 */
module Writers {
  import opened Results
  import opened Bytes
  import opened Containers
  import VarInt

  /** The container after _reserveGrow and the offset it returned. */
  datatype Grown = Grown(writer: Container, at: nat)

  /**
   * _reserveGrow(k): the size grows by k.  When the new size exceeds the
   * capacity the store is re-allocated to exactly the new size, keeping the
   * bytes [0, old size) and zero-filling the rest; otherwise the store is
   * kept as it is.  The old size is returned.
   */
  function ReserveGrow(c: Container, k: nat): (g: Grown)
    requires Valid(c)
    ensures g.at == c.size
    ensures Valid(g.writer) && g.writer.size == c.size + k
    ensures Contents(g.writer)[..c.size] == Contents(c)
    ensures c.size + k <= c.capacity ==> g.writer.data == c.data && g.writer.capacity == c.capacity
    ensures c.size + k > c.capacity ==>
      g.writer.capacity == c.size + k && g.writer.data == Some(Contents(c) + Zeros(k))
    ensures c.data.Some? || k > 0 ==> g.writer.data.Some?
  {
    var newSize := c.size + k;
    if newSize > c.capacity then
      Grown(Container(Some(Contents(c) + Zeros(k)), newSize, newSize), c.size)
    else
      Grown(Container(c.data, newSize, c.capacity), c.size)
  }

  /** The store d with bs written over the positions starting at `at`. */
  function Overwrite(d: seq<byte>, at: nat, bs: seq<byte>): (r: seq<byte>)
    requires at + |bs| <= |d|
    ensures |r| == |d|
    ensures r[..at] == d[..at] && r[at..at + |bs|] == bs && r[at + |bs|..] == d[at + |bs|..]
  {
    d[..at] + bs + d[at + |bs|..]
  }

  /**
   * The common shape of every write: _reserveGrow(|bs|), then bs stored at
   * the returned offset (Uint8Array.set and the DataView setters alike).
   */
  function Append(c: Container, bs: seq<byte>): (r: Container)
    requires Valid(c)
    ensures Valid(r) && r.size == c.size + |bs|
    ensures Contents(r) == Contents(c) + bs
    ensures c.data.Some? || |bs| > 0 ==> r.data.Some?
  {
    var g := ReserveGrow(c, |bs|);
    if |bs| == 0 then
      assert Contents(g.writer) == Contents(c);
      g.writer
    else
      var d := Overwrite(g.writer.data.value, g.at, bs);
      var r := Container(Some(d), g.writer.size, g.writer.capacity);
      AppendContents(Contents(c), Contents(g.writer), g.writer.data.value, d, bs);
      r
  }

  lemma AppendContents(prior: seq<byte>, grown: seq<byte>, store: seq<byte>, d: seq<byte>, bs: seq<byte>)
    requires |grown| == |prior| + |bs| <= |store| == |d|
    requires grown == store[..|grown|] && grown[..|prior|] == prior
    requires d[..|prior|] == store[..|prior|] && d[|prior|..|prior| + |bs|] == bs
    ensures d[..|grown|] == prior + bs
  {
    var n := |prior|;
    assert d[..|grown|] == d[..n] + d[n..n + |bs|];
    assert store[..n] == grown[..n];
  }

  /**
   * writeU8/U16/U32 and writeI8/I16/I32 (w = 1, 2, 4): the w little-endian
   * bytes of v modulo 2^(8w), which are also its two's-complement bytes,
   * appended at the old size.
   */
  function WriteFixed(c: Container, v: int, w: nat): (r: Container)
    requires Valid(c)
    ensures Valid(r) && r.size == c.size + w
    ensures Contents(r) == Contents(c) + EncodeFixed(v, w)
  {
    Append(c, EncodeFixed(v, w))
  }

  /** writeBool: writeU8 of 1 or 0. */
  function WriteBool(c: Container, b: bool): (r: Container)
    requires Valid(c)
    ensures Valid(r) && Contents(r) == Contents(c) + [if b then 1 else 0]
  {
    var r := WriteFixed(c, if b then 1 else 0, 1);
    OneByte(if b then 1 else 0);
    r
  }

  /** A one-byte field holds its value modulo 256. */
  lemma OneByte(v: int)
    ensures EncodeFixed(v, 1) == [v % 256]
  {
  }

  /**
   * writeStringU8/U16/U32 (and writeString = writeStringU32) on the encoded
   * bytes: the byte count as an unsigned w-byte prefix, truncated modulo
   * 2^(8w), then the bytes themselves.
   */
  function WriteLengthPrefixed(c: Container, enc: seq<byte>, w: nat): (r: Container)
    requires Valid(c)
    ensures Valid(r) && r.size == c.size + w + |enc|
    ensures Contents(r) == Contents(c) + EncodeFixed(|enc|, w) + enc
  {
    Append(WriteFixed(c, |enc|, w), enc)
  }

  /** writeCString on the encoded bytes: the bytes, then one 0. */
  function WriteCString(c: Container, enc: seq<byte>): (r: Container)
    requires Valid(c)
    ensures Valid(r) && r.size == c.size + |enc| + 1
    ensures Contents(r) == Contents(c) + enc + [0]
  {
    Append(c, enc + [0])
  }

  /**
   * writeZeros(count): count zero bytes.  On a writer that never allocated
   * a store, a count of 0 leaves the store null and the fill throws.
   */
  function WriteZeros(c: Container, count: nat): (r: Result<Container>)
    requires Valid(c)
    ensures r.Err? <==> c.data.None? && count == 0
    ensures r.Err? ==> r.error == NoStore
    ensures r.Ok? ==>
      && Valid(r.value) && r.value.size == c.size + count
      && Contents(r.value)[..c.size] == Contents(c)
      && forall i :: c.size <= i < r.value.size ==> Contents(r.value)[i] == 0
  {
    if c.data.None? && count == 0 then Err(NoStore)
    else
      var r := Append(c, Zeros(count));
      assert forall i :: c.size <= i < r.size ==> Contents(r)[i] == Zeros(count)[i - c.size];
      Ok(r)
  }

  /** The concatenated w-byte fields of the components, in order. */
  function Fields(vs: seq<int>, w: nat): (r: seq<byte>)
    ensures |r| == Span(|vs|, w)
  {
    if |vs| == 0 then [] else EncodeFixed(vs[0], w) + Fields(vs[1..], w)
  }

  /** writeVector2I16 … writeVector4I32: one fixed-width write per component, x first. */
  function WriteSignedVector(c: Container, vs: seq<int>, w: nat): (r: Container)
    requires Valid(c)
    ensures Valid(r) && r.size == c.size + Span(|vs|, w)
    ensures Contents(r) == Contents(c) + Fields(vs, w)
    decreases |vs|
  {
    if |vs| == 0 then c
    else
      var e := EncodeFixed(vs[0], w);
      var first := Append(c, e);
      var r := WriteSignedVector(first, vs[1..], w);
      FieldsCons(Contents(c), vs, w);
      r
  }

  /** The fields of a vector: the first component's field, then the rest. */
  lemma FieldsCons(prefix: seq<byte>, vs: seq<int>, w: nat)
    requires |vs| > 0
    ensures prefix + Fields(vs, w) == prefix + EncodeFixed(vs[0], w) + Fields(vs[1..], w)
  {
  }

  /** writeVarInt's first loop: the byte count, by shifting with the signed `>> 7`. */
  method VarIntSize(v: int) returns (size: nat)
    ensures size == |VarInt.EncodeAsWritten(v)|
  {
    size := 0;
    var temp := v;
    while temp >= 128
      invariant size + |VarInt.EncodeAsWritten(temp)| == |VarInt.EncodeAsWritten(v)|
      decreases temp
    {
      size := size + 1;
      temp := ToInt32(temp) / 128;
    }
    size := size + 1;
  }

  /**
   * writeVarInt's second loop: (temp & 127) | 128 per continuation group at
   * at, at + 1, …, then the final value stored as a byte.
   */
  method StoreVarInt(store: seq<byte>, at: nat, v: int) returns (data: seq<byte>)
    requires at + |VarInt.EncodeAsWritten(v)| <= |store|
    ensures |data| == |store|
    ensures data[..at] == store[..at]
    ensures data[at..at + |VarInt.EncodeAsWritten(v)|] == VarInt.EncodeAsWritten(v)
  {
    ghost var e := VarInt.EncodeAsWritten(v);
    data := store;
    var bit := 0;
    var temp := v;
    while temp >= 128
      invariant |data| == |store|
      invariant 0 <= bit && bit + |VarInt.EncodeAsWritten(temp)| == |e|
      invariant e[bit..] == VarInt.EncodeAsWritten(temp)
      invariant data[..at] == store[..at]
      invariant data[at..at + bit] == e[..bit]
      decreases temp
    {
      var b: byte := ToInt32(temp) % 128 + 128;
      StoreStep(data, at, bit, e, b);
      data := data[at + bit := b];
      bit := bit + 1;
      temp := ToInt32(temp) / 128;
      assert e[bit..] == e[bit - 1..][1..];
    }
    StoreStep(data, at, bit, e, temp % 256);
    data := data[at + bit := temp % 256];
  }

  lemma StoreStep(data: seq<byte>, at: nat, bit: nat, e: seq<byte>, b: byte)
    requires at + bit < |data| && bit < |e| && e[bit] == b
    requires data[at..at + bit] == e[..bit]
    ensures data[at + bit := b][..at] == data[..at]
    ensures data[at + bit := b][at..at + bit + 1] == e[..bit + 1]
  {
    var d := data[at + bit := b];
    assert d[at..at + bit + 1] == d[at..at + bit] + [b];
    assert d[at..at + bit] == data[at..at + bit];
    assert e[..bit + 1] == e[..bit] + [e[bit]];
  }

  /**
   * writeVarInt as the source writes it: count the bytes, _reserveGrow
   * them, then store them at the returned offset.
   */
  method WriteVarInt(c: Container, v: int) returns (r: Container)
    requires Valid(c)
    ensures Valid(r) && r.size == c.size + |VarInt.EncodeAsWritten(v)|
    ensures Contents(r) == Contents(c) + VarInt.EncodeAsWritten(v)
  {
    var size := VarIntSize(v);
    var g := ReserveGrow(c, size);
    var data := StoreVarInt(g.writer.data.value, g.at, v);
    r := Container(Some(data), g.writer.size, g.writer.capacity);
    AppendContents(Contents(c), Contents(g.writer), g.writer.data.value, data, VarInt.EncodeAsWritten(v));
  }

  /** The corrected varint write: unsigned LEB128 of an unbounded natural. */
  function AppendVarInt(c: Container, v: nat): (r: Container)
    requires Valid(c)
    ensures Valid(r) && Contents(r) == Contents(c) + VarInt.Encode(v)
    ensures VarInt.Decode(Contents(r), c.size) == Ok((v, r.size))
  {
    var r := Append(c, VarInt.Encode(v));
    VarInt.RoundTrip(v, Contents(r), c.size);
    r
  }

  /** How many bytes padToAlignment adds to a container of the given size. */
  function PadCount(size: nat, n: int): (k: nat)
    ensures n > 0 ==> k < n && (size + k) % n == 0
    ensures n <= 0 ==> k == 0
  {
    if n <= 0 || size % n == 0 then 0
    else
      var k := n - size % n;
      DivModUnique(size + k, n, size / n + 1, 0);
      k
  }

  /**
   * padToAlignment(n, fill): when the size is not a multiple of n, write
   * n - size % n bytes of fill (each stored modulo 256).  For n <= 0 the
   * JavaScript remainder is NaN or the count is negative, so nothing is
   * written.
   */
  method PadToAlignment(c: Container, n: int, fill: int) returns (r: Container)
    requires Valid(c)
    ensures Valid(r)
    ensures n <= 0 ==> r == c
    ensures n > 0 ==> r.size % n == 0 && c.size <= r.size < c.size + n
    ensures Contents(r) == Contents(c) + seq(PadCount(c.size, n), _ => fill % 256)
  {
    var k := PadCount(c.size, n);
    r := c;
    var i := 0;
    while i < k
      invariant 0 <= i <= k
      invariant Valid(r) && Contents(r) == Contents(c) + seq(i, _ => fill % 256)
      invariant i == 0 ==> r == c
    {
      r := WriteFixed(r, fill, 1);
      OneByte(fill);
      assert seq(i + 1, _ => fill % 256) == seq(i, _ => fill % 256) + [fill % 256];
      i := i + 1;
    }
  }
}
